=== FILE: README.md ===
# Parking lot management: a verified Dafny model

This project models the domain layer of a Spring Boot parking-lot web
application. Lot managers create, edit and delete parking lots. Users manage
their own profile, password and account. Two start-up seeders create the
default accounts and two sample lots.

The model is built on two in-memory tables, `Tables.Table<T>`. Each is a map
from id to row plus an identity counter `nextId`. On these tables the model
builds:

- **The `ParkingLot` entity** (`ParkingLot.dfy`). It is a class with the
  source's constructors and setters. Each business setter stamps `updatedAt`
  with the clock value it is given. `Lot` is the entity's value as a
  datatype. The derived fields are functions on `Lot`:
  - `AvailableSlots` uses Java `int` wrap-around.
  - `OccupancyPercentage` is computed over the reals.
  - `IsActive` holds iff the status is AVAILABLE.
  - `SatisfiesConstraints` is the entity's bean validation. `@NotBlank` is
    stated through `Text.Trim`, a model of `String.trim()`.
- **The lot repository** (`ParkingLotRepository.dfy`). The derived finders,
  the two JPQL listings with their `ORDER BY`, and `countByStatus` are pure
  functions over the table. The listings are specified as sorted permutations.
  `LotStore` is the mutable repository bean, with `save` and `deleteById`.
  - Spring Data's `save` is modelled this way: an entity whose id has a row
    overwrites that row; any other entity is inserted under a fresh id.
  - A single-result finder that matches several rows raises an error in Spring
    Data. The model returns `NotUnique` for it.
  - `Stored` is the row `save` writes: the entity itself when its id has a
    row, otherwise the entity under the next generated id. So a create form
    that carries the id of a stored lot replaces that lot (see `CreateLot`).
- **`ParkingLotService`** (`ParkingLotService.dfy`).
  - Its update operations load the stored lot into an entity, change it
    through the setters and save it back.
  - Each has a not-found path that changes nothing.
  - The dashboard's four counts are proved to add up.
  - The plain read operations (`GetAllParkingLots`, `GetAvailableParkingLots`,
    `GetParkingLotById`, `GetParkingLotByName`, `GetParkingLotsByLocation`,
    `GetParkingLotsByStatus` and the count getters) each delegate to one
    repository function. Their properties are the contracts of those
    functions.
- **Users** (`User.dfy`, `UserRepository.dfy`, `UserService.dfy`).
  - The caller's identity is an explicit `Option<Principal>` parameter.
  - The password encoder is a pair of functions, `encode` and `matches`.
    `Sound(e)` states the one promise every encoder makes: a password matches
    its own encoding.
  - The Java pass-throughs `existsByUsername`, `existsByEmail`,
    `findByUsername` and `findByEmail` of `UserService` are not written as
    members of the Dafny `UserService` class. Their callers use the
    repository's `ExistsByUsername`, `ExistsByEmail`, `FindByUsername` and
    `FindByEmail` directly. The contracts of the two finders tie each one to
    its `exists` query.
- **The two request handlers** (`LotManagerController.dfy`,
  `ProfileController.dfy`). Each handler returns a `Web.Response`: a rendered
  view with a notice, a redirect with a flash message, or a server error for
  an exception that escapes the handler. The main invariant proved here:
  lot names stay unique across every create, edit and delete. The schema does
  not enforce this; only these handler checks keep it.
- **The seeders** (`DataInitializationService.dfy`, `DataInitializer.dfy`).
  Each seeder is a method on the tables, specified by a function:
  `SeedUser`, `SeedAccounts` and `SeedLots`. Lemmas about these functions
  prove idempotence, that existing rows are never changed, and that exactly
  one "lotm" account results in either start-up order.

## Model

| member | source | states |
|---|---|---|
| `Text.Trim` | src/main/java/com/parking/model/ParkingLot.java:17-22 | the trim() that @NotBlank applies: an empty result, or one that starts and ends with a character above U+0020 |
| `Text.TrimSlice` | src/main/java/com/parking/model/ParkingLot.java:17-22 | trim() returns a slice s[a..b] of its input, and every character cut off before a or from b on is at or below U+0020 |
| `Text.TrimEmptyIffBlank` | src/main/java/com/parking/model/ParkingLot.java:17-22 | trim() is empty exactly when every character is at or below U+0020 |
| `Text.TrimExample` | src/main/java/com/parking/model/ParkingLot.java:17-22 | trim() of " \t Lot A \n" is "Lot A" |
| `ParkingLotModel.SatisfiesConstraints` | src/main/java/com/parking/model/ParkingLot.java:17-31 | a lot is valid iff trim() of its name and trim() of its location are non-empty (@NotBlank) and its capacity is at least 1 (@NotNull @Min(1)) |
| `ParkingLotModel.AvailableSlots` | src/main/java/com/parking/model/ParkingLot.java:144-146 | free slots plus occupied slots equal capacity whenever the difference fits in an int; otherwise they agree modulo 2^32; the result lies in 0..capacity when occupancy does |
| `ParkingLotModel.AvailableSlotsWrapsAround` | src/main/java/com/parking/model/ParkingLot.java:144-146 | capacity Integer.MAX_VALUE with occupiedSlots -1 reports Integer.MIN_VALUE free slots, not capacity - occupied |
| `ParkingLotModel.OccupancyPercentage` | src/main/java/com/parking/model/ParkingLot.java:148-151 | 0 when capacity is 0; otherwise the value times capacity is occupiedSlots times 100, i.e. occupiedSlots / capacity * 100; within 0..100 when occupancy is within capacity; exactly 100 iff full and exactly 0 iff empty |
| `ParkingLotModel.OccupancyExample` | src/main/java/com/parking/model/ParkingLot.java:144-151 | a lot of 10 with 7 occupied shows 3 free and 70% |
| `ParkingLotModel.ParkingLot.constructor` | src/main/java/com/parking/model/ParkingLot.java:35-54 | a new entity has no id, empty fields, status AVAILABLE, 0 occupied, and createdAt = updatedAt = now |
| `ParkingLotModel.ParkingLot.WithDetails` | src/main/java/com/parking/model/ParkingLot.java:56-62 | sets name, location, description and capacity and keeps every other default |
| `ParkingLotModel.ParkingLot.Load` | src/main/java/com/parking/service/ParkingLotService.java:45-47 | the entity a lookup hands back holds exactly the stored row |
| `ParkingLotModel.ParkingLot.SetId` | src/main/java/com/parking/model/ParkingLot.java:69-71 | changes only the id; updatedAt is untouched |
| `ParkingLotModel.ParkingLot.SetLotName` | src/main/java/com/parking/model/ParkingLot.java:77-80 | changes only lotName and stamps updatedAt with the clock |
| `ParkingLotModel.ParkingLot.SetLocation` | src/main/java/com/parking/model/ParkingLot.java:86-89 | changes only location and stamps updatedAt |
| `ParkingLotModel.ParkingLot.SetDescription` | src/main/java/com/parking/model/ParkingLot.java:95-98 | changes only description and stamps updatedAt |
| `ParkingLotModel.ParkingLot.SetCapacity` | src/main/java/com/parking/model/ParkingLot.java:104-107 | changes only capacity and stamps updatedAt |
| `ParkingLotModel.ParkingLot.SetStatus` | src/main/java/com/parking/model/ParkingLot.java:113-116 | changes only status and stamps updatedAt |
| `ParkingLotModel.ParkingLot.SetOccupiedSlots` | src/main/java/com/parking/model/ParkingLot.java:122-125 | changes only occupiedSlots, with no bound check, and stamps updatedAt |
| `ParkingLotModel.ParkingLot.SetCreatedAt` | src/main/java/com/parking/model/ParkingLot.java:131-133 | changes only createdAt; updatedAt is untouched |
| `ParkingLotModel.ParkingLot.SetUpdatedAt` | src/main/java/com/parking/model/ParkingLot.java:139-141 | changes only updatedAt |
| `ParkingLotRepository.PutKeepsUniqueNames` | src/main/java/com/parking/model/ParkingLot.java:17-19 | lot_name has no unique constraint; writing a lot whose name no other lot holds keeps names unique |
| `ParkingLotRepository.AfterSave` | src/main/java/com/parking/service/ParkingLotService.java:35-37 | save writes the stored lot (`Stored`: the entity itself when its id has a row, else the entity under the next generated id) under its id, adds at most that one key, bumps the counter only on insert, and leaves every other row unchanged |
| `ParkingLotRepository.FindById` | src/main/java/com/parking/service/ParkingLotService.java:27-29 | present iff the id is stored, and then it is that row |
| `ParkingLotRepository.AfterDeleteById` | src/main/java/com/parking/service/ParkingLotService.java:58-64 | deleteById removes exactly that key and leaves every other row unchanged |
| `ParkingLotRepository.FindByLotName` | src/main/java/com/parking/repository/ParkingLotRepository.java:14 | not found iff no lot has the name; found gives a stored lot of that name equal to every lot of that name; an error iff two lots share the name |
| `ParkingLotRepository.FindByLocation` | src/main/java/com/parking/repository/ParkingLotRepository.java:16 | exactly the stored lots at that location, each once |
| `ParkingLotRepository.FindByStatus` | src/main/java/com/parking/repository/ParkingLotRepository.java:18 | exactly the stored lots with that status, each once |
| `ParkingLotRepository.PrecedesTotal` | src/main/java/com/parking/repository/ParkingLotRepository.java:20-24 | both ORDER BY keys compare any two lots |
| `ParkingLotRepository.PrecedesTransitive` | src/main/java/com/parking/repository/ParkingLotRepository.java:20-24 | both ORDER BY keys are transitive |
| `ParkingLotRepository.InsertSorted` | src/main/java/com/parking/repository/ParkingLotRepository.java:20-24 | inserting into a sorted listing keeps it sorted and adds exactly that lot |
| `ParkingLotRepository.SortBy` | src/main/java/com/parking/repository/ParkingLotRepository.java:20-24 | an ORDER BY result is sorted by its key and is a permutation of its input |
| `ParkingLotRepository.SortByNoDup` | src/main/java/com/parking/repository/ParkingLotRepository.java:20-24 | sorting a listing without repeats yields none |
| `ParkingLotRepository.FindAllAvailableLots` | src/main/java/com/parking/repository/ParkingLotRepository.java:20-21 | exactly the lots for which isActive() holds (status AVAILABLE), in both directions, each once, in ascending lotName order |
| `ParkingLotRepository.FindAllOrderByCreatedAtDesc` | src/main/java/com/parking/repository/ParkingLotRepository.java:23-24 | every stored lot exactly once, newest createdAt first |
| `ParkingLotRepository.CountByStatus` | src/main/java/com/parking/repository/ParkingLotRepository.java:26-27 | the number of lots with the status: at most count(), 0 iff no lot has it, equal to the length of findByStatus, and for AVAILABLE to the length of findAllAvailableLots |
| `ParkingLotRepository.Count` | src/main/java/com/parking/service/ParkingLotService.java:78-80 | count() equals the length of the full listing findAllOrderByCreatedAtDesc |
| `ParkingLotRepository.CountsPartition` | src/main/java/com/parking/repository/ParkingLotRepository.java:26-27 | the three status counts sum to count() |
| `ParkingLotRepository.LotStore.Save` | src/main/java/com/parking/service/ParkingLotService.java:36 | the table becomes AfterSave of the old table, and the returned lot is the stored one |
| `ParkingLotRepository.LotStore.DeleteById` | src/main/java/com/parking/service/ParkingLotService.java:60 | the table becomes AfterDeleteById of the old table |
| `LotService.ParkingLotService.ExistsByLotName` | src/main/java/com/parking/service/ParkingLotService.java:66-68 | true iff some lot has the name, when at most one does; the finder's error otherwise |
| `LotService.ParkingLotService.SaveParkingLot` | src/main/java/com/parking/service/ParkingLotService.java:35-37 | persists the entity's current value by save |
| `LotService.ParkingLotService.CreateParkingLot` | src/main/java/com/parking/service/ParkingLotService.java:39-42 | adds exactly one row under a fresh id: the given four fields, AVAILABLE, 0 occupied; all other rows unchanged |
| `LotService.ParkingLotService.UpdateParkingLot` | src/main/java/com/parking/service/ParkingLotService.java:44-56 | unknown id gives none and no change; otherwise overwrites exactly name, location, description, capacity and status (stamping updatedAt) of that row, and nothing else |
| `LotService.ParkingLotService.DeleteParkingLot` | src/main/java/com/parking/service/ParkingLotService.java:58-64 | true iff the id was stored; afterwards it is absent and every other row is unchanged |
| `LotService.ParkingLotService.UpdateOccupancy` | src/main/java/com/parking/service/ParkingLotService.java:94-102 | unknown id gives none and no change; otherwise only that row's occupiedSlots (and updatedAt) change, with no capacity check |
| `LotService.DashboardCountsAddUp` | src/main/java/com/parking/service/ParkingLotService.java:78-92 | total = available + maintenance + closed |
| `UserRepository.FindByUsername` | src/main/java/com/parking/service/UserService.java:42-44 | none iff existsByUsername is false; otherwise a stored account of that name, the only one when usernames are unique |
| `UserRepository.FindByEmail` | src/main/java/com/parking/service/UserService.java:46-48 | none iff existsByEmail (UserService.java:108-110) is false; otherwise a stored account with that email |
| `UserRepository.AfterSave` | src/main/java/com/parking/service/UserService.java:39 | save writes the stored account (`Stored`: kept when its id has a row, else under the next generated id) under its id and leaves every other row unchanged |
| `UserRepository.AfterDelete` | src/main/java/com/parking/service/UserService.java:100 | delete removes exactly the account's id and leaves every other row unchanged |
| `UserRepository.UserStore.Save` | src/main/java/com/parking/service/UserService.java:39 | the table becomes AfterSave of the old table |
| `UserRepository.UserStore.Delete` | src/main/java/com/parking/service/UserService.java:100 | the table becomes AfterDelete of the old table |
| `AccountService.UserService.GetCurrentUser` | src/main/java/com/parking/service/UserService.java:50-57 | none for an absent, unauthenticated or anonymous principal; otherwise present iff an account has the principal's name, and then it is that account |
| `AccountService.UserService.RegisterUser` | src/main/java/com/parking/service/UserService.java:24-40 | "Username already exists!" first, then "Email already exists!", both with no change; otherwise exactly one account is saved with password encode(raw); usernames stay unique |
| `AccountService.UserService.UpdateUserProfile` | src/main/java/com/parking/service/UserService.java:59-78 | "User not found!" without a current user; "Email already exists!" only for a changed email that is taken; otherwise only email, first and last name and phone of the current row change |
| `AccountService.UserService.ChangePassword` | src/main/java/com/parking/service/UserService.java:80-95 | false with no change without a current user or when the old password does not match; otherwise true and the stored password becomes encode(new), which a sound encoder matches |
| `AccountService.UserService.DeleteCurrentUser` | src/main/java/com/parking/service/UserService.java:97-102 | removes exactly the current account's row; no change without one |
| `LotManagerHandlers.LotManagerController.CreateLot` | src/main/java/com/parking/controller/LotManagerController.java:55-77 | binding errors re-render the form; a taken name gives a lotName field error; both change nothing; otherwise it saves and redirects with success; a saved lot satisfies the entity constraints; unique names are kept. The form is saved as bound, so a form whose id field names a stored lot overwrites that lot instead of inserting a new one |
| `LotManagerHandlers.LotManagerController.EditLotForm` | src/main/java/com/parking/controller/LotManagerController.java:79-90 | shows the stored lot, or redirects to the listing with "Parking lot not found" |
| `LotManagerHandlers.LotManagerController.EditLot` | src/main/java/com/parking/controller/LotManagerController.java:92-130 | a name held by another lot is rejected, while the lot's own name is accepted; an unknown id redirects with "Parking lot not found"; otherwise exactly the five form fields of that row change; unique names are kept |
| `LotManagerHandlers.LotManagerController.DeleteLotConfirm` | src/main/java/com/parking/controller/LotManagerController.java:132-143 | shows the stored lot, or redirects to the listing with "Parking lot not found" |
| `LotManagerHandlers.LotManagerController.DeleteLot` | src/main/java/com/parking/controller/LotManagerController.java:145-160 | always redirects to the listing, with success iff the id was stored; only that row goes, and the id counter stays |
| `LotManagerHandlers.LotManagerController.LotDetails` | src/main/java/com/parking/controller/LotManagerController.java:162-173 | shows the stored lot, or redirects to the listing with "Parking lot not found" |
| `ProfileHandlers.ProfileController.ViewProfile` | src/main/java/com/parking/controller/ProfileController.java:21-29 | redirects to /login without a current user; otherwise shows that user |
| `ProfileHandlers.ProfileController.EditProfile` | src/main/java/com/parking/controller/ProfileController.java:31-39 | redirects to /login without a current user; otherwise shows the edit form for that user |
| `ProfileHandlers.ProfileController.UpdateProfile` | src/main/java/com/parking/controller/ProfileController.java:41-65 | only email, first-name or last-name errors block the update; a blocked update or a service error re-renders the form with the username restored; without a current user the handler fails on null; success redirects to /profile with only the four fields of the current row changed and the id counter unchanged |
| `ProfileHandlers.ProfileController.ChangePassword` | src/main/java/com/parking/controller/ProfileController.java:72-98 | a password shorter than 6 is checked first, then the confirmation, both without calling the service; then it redirects to /profile iff the service changed the password (only that row's password changes, the id counter stays), else "Current password is incorrect!" |
| `ProfileHandlers.ProfileController.DeleteProfile` | src/main/java/com/parking/controller/ProfileController.java:105-119 | deletes exactly the current account's row, keeps the id counter, clears the principal and redirects to "/" |
| `DefaultUsers.SeedUser` | src/main/java/com/parking/service/DataInitializationService.java:22-33 | inserts the account under a fresh id iff no account has its username; otherwise the table is unchanged |
| `DefaultUsers.SeedUserIdempotent` | src/main/java/com/parking/service/DataInitializationService.java:22 | seeding twice equals seeding once |
| `DefaultUsers.SeedUserKeepsRows` | src/main/java/com/parking/service/DataInitializationService.java:19-34 | no existing account is changed or removed |
| `DefaultUsers.SeedUserKeepsUnique` | src/main/java/com/parking/service/DataInitializationService.java:22 | seeding keeps usernames unique |
| `DefaultUsers.SeedUserCount` | src/main/java/com/parking/service/DataInitializationService.java:22-31 | afterwards there is exactly one account of the name if there were none, else as many as before |
| `DefaultUsers.SeedUserOtherName` | src/main/java/com/parking/service/DataInitializationService.java:22-31 | accounts of any other username are untouched |
| `DefaultUsers.DataInitializationService.InitializeDefaultUsers` | src/main/java/com/parking/service/DataInitializationService.java:19-34 | the user table becomes SeedUser of the "lotm" account (LOT_MANAGER, lotmanager@parking.com, encode("lotm123")); only the user store is modified |
| `StartupSeeder.SeedAccounts` | src/main/java/com/parking/config/DataInitializer.java:28-51 | afterwards both "lotm" and "admin" exist, every existing account is unchanged, and at most two accounts are added |
| `StartupSeeder.SeedLots` | src/main/java/com/parking/config/DataInitializer.java:54-74 | a non-empty lot table is left unchanged |
| `StartupSeeder.RunEstablishes` | src/main/java/com/parking/config/DataInitializer.java:28-74 | after run, "lotm" and "admin" exist and the lot table is non-empty |
| `StartupSeeder.RunIdempotent` | src/main/java/com/parking/config/DataInitializer.java:28-54 | running run again, at any later time, changes neither table |
| `StartupSeeder.RunKeepsRows` | src/main/java/com/parking/config/DataInitializer.java:28-74 | run never changes or removes an existing account or lot |
| `StartupSeeder.SampleLots` | src/main/java/com/parking/config/DataInitializer.java:54-71 | into an empty table, run puts exactly the two sample lots under consecutive ids, with distinct names, both AVAILABLE, valid and within capacity |
| `StartupSeeder.LotManagerSeededOnce` | src/main/java/com/parking/config/DataInitializer.java:28-38 | with either seeder first, starting from at most one "lotm" account, exactly one results |
| `StartupSeeder.DataInitializer.Run` | src/main/java/com/parking/config/DataInitializer.java:24-75 | the user table becomes SeedAccounts and the lot table SeedLots of the old tables |
| `StartupSeeder.DataInitializer.SeedAccount` | src/main/java/com/parking/config/DataInitializer.java:28-51 | one conditional account insert: the table becomes SeedUser of the old one |
| `StartupSeeder.DataInitializer.BuildLot` | src/main/java/com/parking/config/DataInitializer.java:55-61 | a fresh entity built by the setter calls holds exactly the given fields, AVAILABLE |

## Left out

- AuthController.java, the role gate `@PreAuthorize("hasRole('LOT_MANAGER')")`, and the pages that only fill a view model are not modelled. The pages are `dashboard`, `allLots`, `createLotForm`, `changePasswordForm` and `deleteProfileConfirm`. Their data comes from the service reads, which are modelled.
- The source of User.java and UserRepository.java is not among the files modelled. `UserModel` and `UserRepository` are written from how UserService, ProfileController and the seeders use them and from the Spring Data method names. `User` carries only the fields those callers read or set, with no validation constraints invented.
- Ids are `nat`. The source's `@PathVariable Long id` also accepts a negative id, such as `/lot-manager/edit-lot/-1`. No row ever has a negative id, so such a request behaves like any absent id: "Parking lot not found" for edit, delete and details. The model cannot express that request.
- Time: every `LocalDateTime.now()` reading within one request is the single clock value `now`. The JPA `@PreUpdate` hook, which re-stamps `updatedAt` on flush, is persistence-engine behaviour and is not modelled.
- ParkingLotModel.OccupancyPercentage: computed over the reals; the source's `double` rounding is not modelled.
- ParkingLotModel.AvailableSlots: does not promise `available + occupied == capacity` for every lot. Java `int` subtraction wraps around, so the identity holds only modulo 2^32, and exactly only when the difference fits in an int. `AvailableSlotsWrapsAround` gives a lot where the exact identity fails.
- Null values: a null string is modelled as "" and a null `Integer` as 0. The null-pointer failures of `updateUserProfile` on a null stored email, and of the entity getters on a null capacity, are not modelled. The one null dereference the handlers reach with a normal store, `updateProfile` without a current user, is modelled as a server error.
- ParkingLotRepository.FindAllAvailableLots: orders names by code point (`Text.LexLe`), not by the database's collation. Likewise every finder's equality test is exact, code-point string equality: `FindByLotName`, `FindByLocation`, `FindByUsername`, `FindByEmail`, `ExistsByUsername` and `ExistsByEmail` ignore a collation that matches, for example, case-insensitively. The lot-name uniqueness proved for create and edit is therefore uniqueness under exact equality. Rows that tie on the sort key come out in an order the model chooses; the database's order among them is unspecified. The listings without an ORDER BY (`findByLocation`, `findByStatus`) come out in id order.
- UserRepository.FindByEmail: returns the first account in id order when two accounts share an email, where Spring Data would raise an error. Unique emails are not proved: registration and profile update check the email, but the seeders do not.
- UserRepository.FindByUsername: returns the first account in id order when two accounts share a username, where Spring Data would raise an error. Every operation of the model keeps usernames unique (proved), so this case does not arise from an empty start.
- Password hashing: `encode` is a deterministic function, whereas bcrypt salts each call. Only `matches(p, encode(p))` is assumed, and only as the hypothesis `Sound`. The model makes no claim about hash strength or that passwords are never stored in plain text.
- Password length: `|newPassword|` counts characters as the model's strings do, not UTF-16 code units as `String.length()` does.
- Exceptions from the database during a save or delete are not modelled. So the `catch` branches of `createLot`, `editLot` and `deleteLot`, and the error redirect of `deleteProfile`, are never taken in the model.
- Concurrency: each service call is atomic. The check-then-act races are not modelled: `existsById` then `deleteById`, and a name check then `save`.
- The `System.out.println` logging of the seeders, Spring wiring, templates and the flash-attribute mechanism are not modelled. Views and messages are plain strings.
- Persisting an entity through `save` returns the stored value. Writing the generated id back into the caller's entity object is not modelled; no caller of the core reads it.

=== FILE: DataInitializationService.dfy ===
/** DataInitializationService: at bean construction, make sure the default
    lot-manager account exists. */
module DefaultUsers {
  import opened Wrappers
  import opened Tables
  import opened UserModel
  import opened UserRepository

  const LotManagerName: string := "lotm"

  /** The default lot-manager account, as both seeders build it. */
  function LotManagerAccount(e: PasswordEncoder): User
  {
    User(None, LotManagerName, e.encode("lotm123"), "lotmanager@parking.com", "Lot", "Manager", "", LotManager)
  }

  /** Insert a new account unless some account already has its username. */
  function SeedUser(t: UserTable, u: User): (r: UserTable)
    requires WellFormed(t) && u.id.None?
    ensures WellFormed(r)
    ensures ExistsByUsername(r, u.username)
    ensures ExistsByUsername(t, u.username) ==> r == t
    ensures !ExistsByUsername(t, u.username) ==>
              && t.nextId !in t.rows
              && r.rows == t.rows[t.nextId := u.(id := Some(t.nextId))]
              && r.nextId == t.nextId + 1
  {
    if ExistsByUsername(t, u.username) then t
    else
      var r := AfterSave(t, u);
      assert r.rows[t.nextId].username == u.username;
      r
  }

  /** Seeding is idempotent. */
  lemma SeedUserIdempotent(t: UserTable, u: User)
    requires WellFormed(t) && u.id.None?
    ensures SeedUser(SeedUser(t, u), u) == SeedUser(t, u)
  {
  }

  /** Seeding only adds: every existing account stays as it was. */
  lemma SeedUserKeepsRows(t: UserTable, u: User)
    requires WellFormed(t) && u.id.None?
    ensures forall k :: k in t.rows ==> k in SeedUser(t, u).rows && SeedUser(t, u).rows[k] == t.rows[k]
  {
  }

  /** Seeding checks the username, so it keeps usernames unique. */
  lemma SeedUserKeepsUnique(t: UserTable, u: User)
    requires WellFormed(t) && u.id.None? && UniqueUsernames(t)
    ensures UniqueUsernames(SeedUser(t, u))
  {
  }

  /** After seeding there is at least one account of the seeded name, and
      exactly one when there was at most one before. */
  lemma {:induction false} SeedUserCount(t: UserTable, u: User)
    requires WellFormed(t) && u.id.None?
    ensures |IdsNamed(SeedUser(t, u), u.username)| ==
              if |IdsNamed(t, u.username)| == 0 then 1 else |IdsNamed(t, u.username)|
  {
    if ExistsByUsername(t, u.username) {
      var k :| k in t.rows && t.rows[k].username == u.username;
      assert k in IdsNamed(t, u.username);
    } else {
      assert IdsNamed(t, u.username) == {};
      assert IdsNamed(SeedUser(t, u), u.username) == {t.nextId};
    }
  }

  /** Seeding one name leaves the accounts of every other name alone. */
  lemma SeedUserOtherName(t: UserTable, u: User, name: string)
    requires WellFormed(t) && u.id.None? && u.username != name
    ensures IdsNamed(SeedUser(t, u), name) == IdsNamed(t, name)
  {
  }

  class DataInitializationService {
    const users: UserStore
    const encoder: PasswordEncoder

    constructor (users: UserStore, encoder: PasswordEncoder)
      ensures this.users == users && this.encoder == encoder
    {
      this.users := users;
      this.encoder := encoder;
    }

    /** initializeDefaultUsers: insert the lot-manager account iff no account
        is named "lotm"; the lot table is not touched. */
    method InitializeDefaultUsers()
      requires users.Valid()
      modifies users
      ensures users.Valid()
      ensures users.table == SeedUser(old(users.table), LotManagerAccount(encoder))
    {
      if FindByUsername(users.table, LotManagerName).None? {
        var lotManager := LotManagerAccount(encoder);
        var _ := users.Save(lotManager);
      }
    }
  }
}

=== FILE: DataInitializer.dfy ===
/** DataInitializer: the start-up runner that ensures the default
    lot-manager and admin accounts and, on an empty lot table, two sample
    lots. */
module StartupSeeder {
  import opened Wrappers
  import opened Tables
  import opened Text
  import opened ParkingLotModel
  import Lots = ParkingLotRepository
  import opened UserModel
  import Users = UserRepository
  import opened DefaultUsers

  const AdminName: string := "admin"

  function AdminAccount(e: PasswordEncoder): User
  {
    User(None, AdminName, e.encode("admin123"), "admin@parking.com", "System", "Administrator", "", Admin)
  }

  function GardenLot(now: Time): Lot
  {
    Lot(None, "Garden Area - Ground Floor", "Garden Area", "Open parking space with green surroundings",
        250, Available, 0, now, now)
  }

  function MainBuildingLot(now: Time): Lot
  {
    Lot(None, "Main Building - Ground Floor", "Main Building", "Multi-level covered parking",
        200, Available, 20, now, now)
  }

  /** The account part of run: "lotm" first, then "admin", each only if
      absent. */
  function SeedAccounts(t: Users.UserTable, e: PasswordEncoder): (r: Users.UserTable)
    requires Users.WellFormed(t)
    ensures Users.WellFormed(r)
    ensures Users.ExistsByUsername(r, LotManagerName) && Users.ExistsByUsername(r, AdminName)
    ensures forall k :: k in t.rows ==> k in r.rows && r.rows[k] == t.rows[k]
    ensures |r.rows| <= |t.rows| + 2
  {
    var once := SeedUser(t, LotManagerAccount(e));
    SeedUserKeepsRows(t, LotManagerAccount(e));
    SeedUserKeepsRows(once, AdminAccount(e));
    SeedUserOtherName(once, AdminAccount(e), LotManagerName);
    SeedUser(once, AdminAccount(e))
  }

  /** The lot part of run: the two sample lots, only into an empty table. */
  function SeedLots(t: Lots.LotTable, now: Time): (r: Lots.LotTable)
    requires Lots.WellFormed(t)
    ensures Lots.WellFormed(r)
    ensures Lots.Count(t) > 0 ==> r == t
  {
    if Lots.Count(t) == 0 then Lots.AfterSave(Lots.AfterSave(t, GardenLot(now)), MainBuildingLot(now)) else t
  }

  /** After run: both default accounts exist and there is at least one lot. */
  lemma RunEstablishes(users: Users.UserTable, lots: Lots.LotTable, e: PasswordEncoder, now: Time)
    requires Users.WellFormed(users) && Lots.WellFormed(lots)
    ensures Users.ExistsByUsername(SeedAccounts(users, e), LotManagerName)
    ensures Users.ExistsByUsername(SeedAccounts(users, e), AdminName)
    ensures Lots.Count(SeedLots(lots, now)) > 0
  {
    SeedUserKeepsRows(SeedUser(users, LotManagerAccount(e)), AdminAccount(e));
  }

  /** Running run a second time, at any later time, changes nothing. */
  lemma RunIdempotent(users: Users.UserTable, lots: Lots.LotTable, e: PasswordEncoder, now1: Time, now2: Time)
    requires Users.WellFormed(users) && Lots.WellFormed(lots)
    ensures SeedAccounts(SeedAccounts(users, e), e) == SeedAccounts(users, e)
    ensures SeedLots(SeedLots(lots, now1), now2) == SeedLots(lots, now1)
  {
    RunEstablishes(users, lots, e, now1);
  }

  /** run never changes or removes an existing account or lot. */
  lemma RunKeepsRows(users: Users.UserTable, lots: Lots.LotTable, e: PasswordEncoder, now: Time)
    requires Users.WellFormed(users) && Lots.WellFormed(lots)
    ensures forall k :: k in users.rows ==> k in SeedAccounts(users, e).rows && SeedAccounts(users, e).rows[k] == users.rows[k]
    ensures forall k :: k in lots.rows ==> k in SeedLots(lots, now).rows && SeedLots(lots, now).rows[k] == lots.rows[k]
  {
    SeedUserKeepsRows(users, LotManagerAccount(e));
    SeedUserKeepsRows(SeedUser(users, LotManagerAccount(e)), AdminAccount(e));
  }

  /** Into an empty lot table run puts exactly the two sample lots: both
      AVAILABLE, valid, within capacity, under distinct names. */
  lemma SampleLots(lots: Lots.LotTable, now: Time)
    requires Lots.WellFormed(lots) && Lots.Count(lots) == 0
    ensures var r := SeedLots(lots, now);
            && r.rows.Keys == {lots.nextId, lots.nextId + 1}
            && r.rows[lots.nextId] == GardenLot(now).(id := Some(lots.nextId))
            && r.rows[lots.nextId + 1] == MainBuildingLot(now).(id := Some(lots.nextId + 1))
            && Lots.UniqueNames(r)
            && forall k :: k in r.rows ==>
                 IsActive(r.rows[k]) && SatisfiesConstraints(r.rows[k])
                 && 0 <= r.rows[k].occupiedSlots <= r.rows[k].capacity
  {
    var g, m := lots.nextId, lots.nextId + 1;
    var garden, main := GardenLot(now).(id := Some(g)), MainBuildingLot(now).(id := Some(m));
    assert lots.rows == map[];
    assert Lots.Stored(lots, GardenLot(now)) == garden;
    var once := Lots.AfterSave(lots, GardenLot(now));
    assert once.rows == map[g := garden] && once.nextId == m;
    assert Lots.Stored(once, MainBuildingLot(now)) == main;
    var r := Lots.AfterSave(once, MainBuildingLot(now));
    assert r.rows == map[g := garden, m := main];
    assert r.rows.Keys == {g, m};
    assert SeedLots(lots, now) == r;
    assert garden.lotName[0] == 'G' && main.lotName[0] == 'M';
    assert Lots.UniqueNames(r);
    SampleLotsValid(r.rows, g, m, now);
  }

  /** Both sample lots are AVAILABLE, within capacity and pass the entity's
      validation, whatever their ids. */
  lemma SampleLotsValid(rows: map<nat, Lot>, g: nat, m: nat, now: Time)
    requires rows == map[g := GardenLot(now).(id := Some(g)), m := MainBuildingLot(now).(id := Some(m))]
    ensures forall k :: k in rows ==>
              IsActive(rows[k]) && SatisfiesConstraints(rows[k])
              && 0 <= rows[k].occupiedSlots <= rows[k].capacity
  {
    ValidByFirstCharacters(GardenLot(now).(id := Some(g)));
    ValidByFirstCharacters(MainBuildingLot(now).(id := Some(m)));
  }

  lemma ValidByFirstCharacters(l: Lot)
    requires |l.lotName| > 0 && l.lotName[0] > ' '
    requires |l.location| > 0 && l.location[0] > ' '
    requires l.capacity >= 1
    ensures SatisfiesConstraints(l)
  {
  }

  /** DataInitializationService and run both seed "lotm"; in either order,
      starting from at most one such account, exactly one results. */
  lemma {:induction false} LotManagerSeededOnce(users: Users.UserTable, e: PasswordEncoder)
    requires Users.WellFormed(users) && |Users.IdsNamed(users, LotManagerName)| <= 1
    ensures |Users.IdsNamed(SeedUser(SeedAccounts(users, e), LotManagerAccount(e)), LotManagerName)| == 1
    ensures |Users.IdsNamed(SeedAccounts(SeedUser(users, LotManagerAccount(e)), e), LotManagerName)| == 1
  {
    var lm, adm := LotManagerAccount(e), AdminAccount(e);
    var once := SeedUser(users, lm);
    SeedUserCount(users, lm);
    SeedUserOtherName(once, adm, LotManagerName);
    SeedUserCount(SeedUser(once, adm), lm);
    var twice := SeedUser(once, lm);
    SeedUserCount(once, lm);
    SeedUserOtherName(SeedUser(twice, lm), adm, LotManagerName);
    SeedUserCount(twice, lm);
  }

  class DataInitializer {
    const users: Users.UserStore
    const lots: Lots.LotStore
    const encoder: PasswordEncoder

    constructor (users: Users.UserStore, lots: Lots.LotStore, encoder: PasswordEncoder)
      ensures this.users == users && this.lots == lots && this.encoder == encoder
    {
      this.users := users;
      this.lots := lots;
      this.encoder := encoder;
    }

    /** run: the three conditional inserts, in the source's order. */
    method Run(now: Time)
      requires users.Valid() && lots.Valid()
      modifies users, lots
      ensures users.Valid() && lots.Valid()
      ensures users.table == SeedAccounts(old(users.table), encoder)
      ensures lots.table == SeedLots(old(lots.table), now)
    {
      SeedAccount(LotManagerAccount(encoder));
      SeedAccount(AdminAccount(encoder));
      if Lots.Count(lots.table) == 0 {
        var garden := BuildLot("Garden Area - Ground Floor", "Garden Area",
                               "Open parking space with green surroundings", 250, 0, now);
        var _ := lots.Save(garden.Snapshot());
        var main := BuildLot("Main Building - Ground Floor", "Main Building",
                             "Multi-level covered parking", 200, 20, now);
        var _ := lots.Save(main.Snapshot());
      }
    }

    /** One account of run: saved only if its username is not taken. */
    method SeedAccount(u: User)
      requires users.Valid() && u.id.None?
      modifies users
      ensures users.Valid()
      ensures users.table == SeedUser(old(users.table), u)
    {
      if Users.FindByUsername(users.table, u.username).None? {
        var _ := users.Save(u);
      }
    }

    /** A sample lot, built by setter calls on a fresh entity. */
    static method BuildLot(name: string, location: string, description: string,
                           capacity: Int32, occupied: Int32, now: Time) returns (lot: ParkingLot)
      ensures fresh(lot)
      ensures lot.Snapshot() == Lot(None, name, location, description, capacity, Available, occupied, now, now)
    {
      lot := new ParkingLot(now);
      lot.SetLotName(name, now);
      lot.SetLocation(location, now);
      lot.SetDescription(description, now);
      lot.SetCapacity(capacity, now);
      lot.SetOccupiedSlots(occupied, now);
      lot.SetStatus(Available, now);
    }
  }
}

=== FILE: LotManagerController.dfy ===
/** LotManagerController: the lot manager's create, edit and delete
    submissions and the three pages that show one lot. Role checks happen
    before a handler runs and are not part of this module. */
module LotManagerHandlers {
  import opened Wrappers
  import opened Tables
  import opened ParkingLotModel
  import opened ParkingLotRepository
  import opened LotService
  import opened Web

  const ListingPath: string := "/lot-manager/lots"
  const CreateView: string := "lot-manager/create-lot"
  const EditView: string := "lot-manager/edit-lot"
  const DuplicateName: string := "A parking lot with this name already exists"
  const NotFoundMessage: string := "Parking lot not found"

  /** result.hasErrors() after @Valid binding: a value that could not be
      converted (`bindingFailed`) or a violated entity constraint. */
  predicate HasErrors(form: Lot, bindingFailed: bool)
  {
    bindingFailed || !SatisfiesConstraints(form)
  }

  class LotManagerController {
    const service: ParkingLotService

    ghost predicate Valid()
      reads this, service, service.repo
    {
      service.Valid()
    }

    constructor (service: ParkingLotService)
      requires service.Valid()
      ensures this.service == service && Valid()
    {
      this.service := service;
    }

    /** POST /create-lot: validation errors, then the name check, then save. */
    method CreateLot(form: ParkingLot, bindingFailed: bool) returns (resp: Response)
      requires Valid()
      modifies service.repo
      ensures Valid()
      ensures HasErrors(form.Snapshot(), bindingFailed) ==>
                resp == Render(CreateView, BindingErrors) && service.repo.table == old(service.repo.table)
      ensures !HasErrors(form.Snapshot(), bindingFailed) && NameTaken(old(service.repo.table), form.lotName) ==>
                && resp == (if UniqueNamed(old(service.repo.table), form.lotName)
                            then Render(CreateView, FieldError("lotName", DuplicateName))
                            else ServerError(NonUniqueResult))
                && service.repo.table == old(service.repo.table)
      ensures !HasErrors(form.Snapshot(), bindingFailed) && !NameTaken(old(service.repo.table), form.lotName) ==>
                && resp == Redirect(ListingPath, SuccessFlash("Parking lot created successfully!"))
                && service.repo.table == AfterSave(old(service.repo.table), form.Snapshot())
      ensures resp.Redirect? ==> SatisfiesConstraints(Stored(old(service.repo.table), form.Snapshot()))
      ensures UniqueNames(old(service.repo.table)) ==> UniqueNames(service.repo.table)
    {
      if bindingFailed || !SatisfiesConstraints(form.Snapshot()) {
        return Render(CreateView, BindingErrors);
      }
      var nameInUse := service.ExistsByLotName(form.lotName);
      if nameInUse.Failure? {
        return ServerError(nameInUse.error);
      }
      if nameInUse.value {
        return Render(CreateView, FieldError("lotName", DuplicateName));
      }
      ghost var before := service.repo.table;
      var saved := service.SaveParkingLot(form);
      if UniqueNames(before) {
        PutKeepsUniqueNames(before, saved.id.value, saved);
      }
      resp := Redirect(ListingPath, SuccessFlash("Parking lot created successfully!"));
    }

    /** GET /edit-lot/{id}. */
    method EditLotForm(id: nat) returns (resp: Response, shown: Option<Lot>)
      requires Valid()
      ensures id in service.repo.table.rows ==>
                resp == Render(EditView, NoNotice) && shown == Some(service.repo.table.rows[id])
      ensures id !in service.repo.table.rows ==>
                resp == Redirect(ListingPath, ErrorFlash(NotFoundMessage)) && shown == None
    {
      shown := service.GetParkingLotById(id);
      resp := if shown.Some? then Render(EditView, NoNotice) else Redirect(ListingPath, ErrorFlash(NotFoundMessage));
    }

    /** POST /edit-lot/{id}: validation errors, then the name check that
        lets the lot keep its own name, then the update. */
    method EditLot(id: nat, form: ParkingLot, bindingFailed: bool, now: Time) returns (resp: Response)
      requires Valid()
      modifies service.repo
      ensures Valid()
      ensures HasErrors(form.Snapshot(), bindingFailed) ==>
                resp == Render(EditView, BindingErrors) && service.repo.table == old(service.repo.table)
      ensures !HasErrors(form.Snapshot(), bindingFailed) && !UniqueNamed(old(service.repo.table), form.lotName) ==>
                resp == ServerError(NonUniqueResult) && service.repo.table == old(service.repo.table)
      ensures !HasErrors(form.Snapshot(), bindingFailed) && UniqueNamed(old(service.repo.table), form.lotName)
              && NameTakenByOther(old(service.repo.table), form.lotName, id) ==>
                && resp == Render(EditView, FieldError("lotName", DuplicateName))
                && service.repo.table == old(service.repo.table)
      ensures !HasErrors(form.Snapshot(), bindingFailed) && !NameTakenByOther(old(service.repo.table), form.lotName, id)
              && id !in old(service.repo.table.rows) ==>
                resp == Redirect(ListingPath, ErrorFlash(NotFoundMessage)) && service.repo.table == old(service.repo.table)
      ensures !HasErrors(form.Snapshot(), bindingFailed) && !NameTakenByOther(old(service.repo.table), form.lotName, id)
              && id in old(service.repo.table.rows) ==>
                var after := old(service.repo.table.rows[id]).(lotName := form.lotName, location := form.location,
                                 description := form.description, capacity := form.capacity,
                                 status := form.status, updatedAt := now);
                && resp == Redirect(ListingPath, SuccessFlash("Parking lot updated successfully!"))
                && service.repo.table.rows == old(service.repo.table.rows)[id := after]
                && service.repo.table.nextId == old(service.repo.table.nextId)
                && SatisfiesConstraints(after)
      ensures UniqueNames(old(service.repo.table)) ==> UniqueNames(service.repo.table)
    {
      if bindingFailed || !SatisfiesConstraints(form.Snapshot()) {
        return Render(EditView, BindingErrors);
      }
      ghost var before := service.repo.table;
      var existing := service.GetParkingLotByName(form.lotName);
      if existing.NotUnique? {
        return ServerError(NonUniqueResult);
      }
      if existing.Found? {
        ghost var k :| k in before.rows && before.rows[k] == existing.lot;
        if existing.lot.id.value != id {
          assert k != id && before.rows[k].lotName == form.lotName;
          return Render(EditView, FieldError("lotName", DuplicateName));
        }
        assert !NameTakenByOther(before, form.lotName, id);
      }
      var updated := service.UpdateParkingLot(id, form.lotName, form.location, form.description,
                                              form.capacity, form.status, now);
      if updated.Some? {
        ConstraintsReadThreeFields(form.Snapshot(), updated.value);
        if UniqueNames(before) {
          PutKeepsUniqueNames(before, id, updated.value);
        }
        resp := Redirect(ListingPath, SuccessFlash("Parking lot updated successfully!"));
      } else {
        resp := Redirect(ListingPath, ErrorFlash(NotFoundMessage));
      }
    }

    /** GET /delete-lot/{id}. */
    method DeleteLotConfirm(id: nat) returns (resp: Response, shown: Option<Lot>)
      requires Valid()
      ensures id in service.repo.table.rows ==>
                resp == Render("lot-manager/delete-confirm", NoNotice) && shown == Some(service.repo.table.rows[id])
      ensures id !in service.repo.table.rows ==>
                resp == Redirect(ListingPath, ErrorFlash(NotFoundMessage)) && shown == None
    {
      shown := service.GetParkingLotById(id);
      resp := if shown.Some? then Render("lot-manager/delete-confirm", NoNotice)
              else Redirect(ListingPath, ErrorFlash(NotFoundMessage));
    }

    /** POST /delete-lot/{id}: always back to the listing; the flash says
        whether a lot was deleted. */
    method DeleteLot(id: nat) returns (resp: Response)
      requires Valid()
      modifies service.repo
      ensures Valid()
      ensures resp.Redirect? && resp.location == ListingPath
      ensures resp.flash == (if id in old(service.repo.table.rows)
                             then SuccessFlash("Parking lot deleted successfully!")
                             else ErrorFlash(NotFoundMessage))
      ensures service.repo.table.rows == old(service.repo.table.rows) - {id}
      ensures service.repo.table.nextId == old(service.repo.table.nextId)
      ensures UniqueNames(old(service.repo.table)) ==> UniqueNames(service.repo.table)
    {
      var deleted := service.DeleteParkingLot(id);
      if deleted {
        resp := Redirect(ListingPath, SuccessFlash("Parking lot deleted successfully!"));
      } else {
        resp := Redirect(ListingPath, ErrorFlash(NotFoundMessage));
      }
    }

    /** GET /lot-details/{id}. */
    method LotDetails(id: nat) returns (resp: Response, shown: Option<Lot>)
      requires Valid()
      ensures id in service.repo.table.rows ==>
                resp == Render("lot-manager/lot-details", NoNotice) && shown == Some(service.repo.table.rows[id])
      ensures id !in service.repo.table.rows ==>
                resp == Redirect(ListingPath, ErrorFlash(NotFoundMessage)) && shown == None
    {
      shown := service.GetParkingLotById(id);
      resp := if shown.Some? then Render("lot-manager/lot-details", NoNotice)
              else Redirect(ListingPath, ErrorFlash(NotFoundMessage));
    }
  }
}

=== FILE: ParkingLot.dfy ===
/** The ParkingLot entity: its stored value `Lot`, the mutable entity object
    `ParkingLot` with its constructors and time-stamping setters, and the
    derived fields the views read. */
module ParkingLotModel {
  import opened Wrappers
  import opened Text

  /** A reading of the clock (LocalDateTime.now()); only its order matters. */
  type Time = int

  /** The range of java.lang.Integer / int: two's-complement 32-bit. */
  predicate InInt32(x: int)
  {
    -0x8000_0000 <= x < 0x8000_0000
  }

  newtype Int32 = x: int | InInt32(x)

  /** Java int arithmetic keeps the low 32 bits of the exact result. */
  function Wrap32(x: int): (r: Int32)
    ensures (r as int - x) % 0x1_0000_0000 == 0
    ensures InInt32(x) ==> r as int == x
  {
    var m := x % 0x1_0000_0000;
    if m < 0x8000_0000 then m as Int32 else (m - 0x1_0000_0000) as Int32
  }

  datatype LotStatus = Available | Maintenance | Closed

  /** The value of a parking lot: what a row of `parking_lots` holds and what
      an entity object's fields hold at one moment. `id` is None until the lot
      is first saved; null strings and a null capacity appear as "" and 0. */
  datatype Lot = Lot(
    id: Option<nat>,
    lotName: string,
    location: string,
    description: string,
    capacity: Int32,
    status: LotStatus,
    occupiedSlots: Int32,
    createdAt: Time,
    updatedAt: Time)

  /** The bean-validation constraints of the entity: @NotBlank lotName and
      location, @NotNull @Min(1) capacity. @NotBlank is defined by trim(). */
  function SatisfiesConstraints(l: Lot): (r: bool)
    ensures r <==> |Trim(l.lotName)| > 0 && |Trim(l.location)| > 0 && l.capacity >= 1
  {
    TrimEmptyIffBlank(l.lotName);
    TrimEmptyIffBlank(l.location);
    !IsBlank(l.lotName) && !IsBlank(l.location) && l.capacity >= 1
  }

  /** Validation reads only the name, the location and the capacity. */
  lemma ConstraintsReadThreeFields(a: Lot, b: Lot)
    requires a.lotName == b.lotName && a.location == b.location && a.capacity == b.capacity
    ensures SatisfiesConstraints(a) == SatisfiesConstraints(b)
  {
  }

  /** getAvailableSlots: capacity - occupiedSlots in Java int arithmetic.
      Nothing bounds occupiedSlots, so the difference may be negative, and in
      the extreme it wraps around. */
  function AvailableSlots(l: Lot): (r: Int32)
    ensures (r as int + l.occupiedSlots as int - l.capacity as int) % 0x1_0000_0000 == 0
    ensures InInt32(l.capacity as int - l.occupiedSlots as int) ==>
              r as int + l.occupiedSlots as int == l.capacity as int
    ensures 0 <= l.occupiedSlots <= l.capacity ==> 0 <= r <= l.capacity
  {
    Wrap32(l.capacity as int - l.occupiedSlots as int)
  }

  /** getOccupancyPercentage, over the reals (the source computes in double). */
  function OccupancyPercentage(l: Lot): (r: real)
    ensures l.capacity == 0 ==> r == 0.0
    ensures l.capacity != 0 ==> r * (l.capacity as real) == (l.occupiedSlots as real) * 100.0
    ensures 0 <= l.occupiedSlots <= l.capacity && l.capacity > 0 ==> 0.0 <= r <= 100.0
    ensures l.capacity > 0 ==> (r == 100.0 <==> l.occupiedSlots == l.capacity)
    ensures l.capacity > 0 ==> (r == 0.0 <==> l.occupiedSlots == 0)
  {
    if l.capacity == 0 then 0.0
    else
      Ratio(l.occupiedSlots as real, l.capacity as real);
      (l.occupiedSlots as real / l.capacity as real) * 100.0
  }

  /** What a quotient tells about its numerator. */
  lemma Ratio(a: real, b: real)
    requires b != 0.0
    ensures 0.0 <= a <= b ==> 0.0 <= a / b <= 1.0
    ensures a / b == 1.0 <==> a == b
    ensures a / b == 0.0 <==> a == 0.0
  {
    assert (a / b) * b == a;
  }

  /** isActive: the lot takes cars exactly when it is AVAILABLE. */
  predicate IsActive(l: Lot)
  {
    l.status == Available
  }

  /** A lot where getAvailableSlots wraps around: capacity Integer.MAX_VALUE
      and occupiedSlots -1 (which updateOccupancy accepts) report
      Integer.MIN_VALUE free slots instead of 2^31. */
  lemma AvailableSlotsWrapsAround(l: Lot)
    requires l.capacity == 0x7fff_ffff && l.occupiedSlots == -1
    ensures AvailableSlots(l) == -0x8000_0000
    ensures AvailableSlots(l) as int != l.capacity as int - l.occupiedSlots as int
  {
  }

  /** A lot of 10 slots with 7 taken shows 3 free and 70% occupancy. */
  lemma OccupancyExample(l: Lot)
    requires l.capacity == 10 && l.occupiedSlots == 7
    ensures AvailableSlots(l) == 3 && OccupancyPercentage(l) == 70.0
  {
  }

  /** The mutable JPA entity. Every setter of a business field also stamps
      updatedAt with the clock; setId, setCreatedAt and setUpdatedAt do not. */
  class ParkingLot {
    var id: Option<nat>
    var lotName: string
    var location: string
    var description: string
    var capacity: Int32
    var status: LotStatus
    var occupiedSlots: Int32
    var createdAt: Time
    var updatedAt: Time

    /** The entity's current field values. */
    function Snapshot(): Lot
      reads this
    {
      Lot(id, lotName, location, description, capacity, status, occupiedSlots, createdAt, updatedAt)
    }

    /** new ParkingLot(): both timestamps read the clock; status AVAILABLE and
        no occupied slots by default. */
    constructor (now: Time)
      ensures Snapshot() == Lot(None, "", "", "", 0, Available, 0, now, now)
    {
      id := None;
      lotName, location, description := "", "", "";
      capacity := 0;
      status := Available;
      occupiedSlots := 0;
      createdAt, updatedAt := now, now;
    }

    /** new ParkingLot(lotName, location, description, capacity): the
        no-argument defaults plus the four given fields. */
    constructor WithDetails(lotName: string, location: string, description: string, capacity: Int32, now: Time)
      ensures Snapshot() == Lot(None, lotName, location, description, capacity, Available, 0, now, now)
    {
      id := None;
      this.lotName, this.location, this.description := lotName, location, description;
      this.capacity := capacity;
      status := Available;
      occupiedSlots := 0;
      createdAt, updatedAt := now, now;
    }

    /** The entity the persistence engine materialises from a stored row. */
    constructor Load(row: Lot)
      ensures Snapshot() == row
    {
      id := row.id;
      lotName, location, description := row.lotName, row.location, row.description;
      capacity := row.capacity;
      status := row.status;
      occupiedSlots := row.occupiedSlots;
      createdAt, updatedAt := row.createdAt, row.updatedAt;
    }

    method SetId(id: Option<nat>)
      modifies this
      ensures Snapshot() == old(Snapshot()).(id := id)
    {
      this.id := id;
    }

    method SetLotName(lotName: string, now: Time)
      modifies this
      ensures Snapshot() == old(Snapshot()).(lotName := lotName, updatedAt := now)
    {
      this.lotName := lotName;
      updatedAt := now;
    }

    method SetLocation(location: string, now: Time)
      modifies this
      ensures Snapshot() == old(Snapshot()).(location := location, updatedAt := now)
    {
      this.location := location;
      updatedAt := now;
    }

    method SetDescription(description: string, now: Time)
      modifies this
      ensures Snapshot() == old(Snapshot()).(description := description, updatedAt := now)
    {
      this.description := description;
      updatedAt := now;
    }

    method SetCapacity(capacity: Int32, now: Time)
      modifies this
      ensures Snapshot() == old(Snapshot()).(capacity := capacity, updatedAt := now)
    {
      this.capacity := capacity;
      updatedAt := now;
    }

    method SetStatus(status: LotStatus, now: Time)
      modifies this
      ensures Snapshot() == old(Snapshot()).(status := status, updatedAt := now)
    {
      this.status := status;
      updatedAt := now;
    }

    method SetOccupiedSlots(occupiedSlots: Int32, now: Time)
      modifies this
      ensures Snapshot() == old(Snapshot()).(occupiedSlots := occupiedSlots, updatedAt := now)
    {
      this.occupiedSlots := occupiedSlots;
      updatedAt := now;
    }

    method SetCreatedAt(createdAt: Time)
      modifies this
      ensures Snapshot() == old(Snapshot()).(createdAt := createdAt)
    {
      this.createdAt := createdAt;
    }

    method SetUpdatedAt(updatedAt: Time)
      modifies this
      ensures Snapshot() == old(Snapshot()).(updatedAt := updatedAt)
    {
      this.updatedAt := updatedAt;
    }
  }
}

=== FILE: ParkingLotRepository.dfy ===
/** The parking_lots table and the repository's queries over it: the
    derived finders (findByLotName, findByLocation, findByStatus), the two
    JPQL listings with their ORDER BY, the status count, and the generic
    save / findById / deleteById / count of a JPA repository. */
module ParkingLotRepository {
  import opened Wrappers
  import opened Sequences
  import opened Text
  import opened Tables
  import opened ParkingLotModel

  type LotTable = Table<Lot>

  /** Ids below the identity counter, and each row carries its own id. */
  ghost predicate WellFormed(t: LotTable)
  {
    Bounded(t) && forall k :: k in t.rows ==> t.rows[k].id == Some(k)
  }

  /** Some stored lot has exactly this name. */
  ghost predicate NameTaken(t: LotTable, name: string)
  {
    exists k :: k in t.rows && t.rows[k].lotName == name
  }

  /** No two stored lots share a name. Nothing in the schema enforces this;
      only the request handlers' checks keep it. */
  ghost predicate UniqueNames(t: LotTable)
  {
    forall j, k :: j in t.rows && k in t.rows && j != k ==> t.rows[j].lotName != t.rows[k].lotName
  }

  /** Some stored lot other than `id` has this name. */
  ghost predicate NameTakenByOther(t: LotTable, name: string, id: nat)
  {
    exists k :: k in t.rows && k != id && t.rows[k].lotName == name
  }

  /** Writing a lot under key `id` keeps names unique when no other lot has
      its name. */
  lemma {:induction false} PutKeepsUniqueNames(t: LotTable, id: nat, l: Lot)
    requires UniqueNames(t) && !NameTakenByOther(t, l.lotName, id)
    ensures UniqueNames(t.(rows := t.rows[id := l]))
  {
    var rows := t.rows[id := l];
    forall j, k | j in rows && k in rows && j != k
      ensures rows[j].lotName != rows[k].lotName
    {
      if j == id {
        assert k in t.rows && k != id;
      } else if k == id {
        assert j in t.rows && j != id;
      }
    }
  }

  // ---------------------------------------------------------------------
  // Generic repository operations

  /** Spring Data's save decides between update and insert by the id. */
  predicate IsUpdate(t: LotTable, l: Lot)
  {
    l.id.Some? && l.id.value in t.rows
  }

  /** The row save writes: the lot under the id SaveKey chooses. */
  function Stored(t: LotTable, l: Lot): Lot
  {
    l.(id := Some(SaveKey(t, l.id)))
  }

  /** save(lot): overwrite the row with the lot's id, or insert the lot under
      a freshly generated id when it has none or its id has no row. */
  function AfterSave(t: LotTable, l: Lot): (r: LotTable)
    requires WellFormed(t)
    ensures WellFormed(r)
    ensures Stored(t, l).id.value in r.rows && r.rows[Stored(t, l).id.value] == Stored(t, l)
    ensures r.rows.Keys == t.rows.Keys + {Stored(t, l).id.value}
    ensures IsUpdate(t, l) ==> r.nextId == t.nextId
    ensures !IsUpdate(t, l) ==> Stored(t, l).id.value !in t.rows && r.nextId == t.nextId + 1
    ensures forall k :: k in t.rows && k != Stored(t, l).id.value ==> r.rows[k] == t.rows[k]
  {
    Put(t, SaveKey(t, l.id), Stored(t, l))
  }

  /** findById. */
  function FindById(t: LotTable, id: nat): (r: Option<Lot>)
    requires WellFormed(t)
    ensures r.Some? <==> id in t.rows
    ensures r.Some? ==> r.value == t.rows[id] && r.value.id == Some(id)
  {
    if id in t.rows then Some(t.rows[id]) else None
  }

  /** deleteById: the row goes, every other row stays. */
  function AfterDeleteById(t: LotTable, id: nat): (r: LotTable)
    requires WellFormed(t)
    ensures WellFormed(r)
    ensures r.rows.Keys == t.rows.Keys - {id}
    ensures forall k :: k in r.rows ==> r.rows[k] == t.rows[k]
  {
    t.(rows := t.rows - {id})
  }

  /** count(): as many as the full listing shows. */
  function Count(t: LotTable): (n: nat)
    ensures WellFormed(t) ==> n == |FindAllOrderByCreatedAtDesc(t)|
  {
    ListingCount(t);
    |t.rows|
  }

  // ---------------------------------------------------------------------
  // Derived finders

  /** The outcome of a single-result finder: Spring Data raises
      IncorrectResultSizeDataAccessException when more than one row matches. */
  datatype Lookup = NotFound | Found(lot: Lot) | NotUnique

  /** findByLotName. */
  function FindByLotName(t: LotTable, name: string): (r: Lookup)
    requires WellFormed(t)
    ensures r.NotFound? <==> !NameTaken(t, name)
    ensures r.Found? ==> r.lot in t.rows.Values && r.lot.lotName == name
    ensures r.Found? ==> forall k :: k in t.rows && t.rows[k].lotName == name ==> t.rows[k] == r.lot
    ensures r.NotUnique? <==> !UniqueNamed(t, name)
  {
    var matches := Named(t, name);
    if |matches| == 0 then
      NoneNamed(t, name);
      NotFound
    else if |matches| == 1 then
      OneNamed(t, name);
      Found(matches[0])
    else
      SeveralNamed(t, name);
      NotUnique
  }

  /** The stored lots with this name, in id order. */
  function Named(t: LotTable, name: string): (r: seq<Lot>)
    requires WellFormed(t)
    ensures NoDup(r)
    ensures forall k :: k in t.rows && t.rows[k].lotName == name ==> t.rows[k] in r
    ensures forall x :: x in r ==> x.lotName == name && exists k :: k in t.rows && t.rows[k] == x
  {
    ValuesNoDup(t);
    FilterNoDup(Values(t), (l: Lot) => l.lotName == name);
    Filter(Values(t), (l: Lot) => l.lotName == name)
  }

  lemma NoneNamed(t: LotTable, name: string)
    requires WellFormed(t) && |Named(t, name)| == 0
    ensures !NameTaken(t, name) && UniqueNamed(t, name)
  {
    var m := Named(t, name);
    assert forall k :: k in t.rows ==> t.rows[k] !in m;
  }

  lemma OneNamed(t: LotTable, name: string)
    requires WellFormed(t) && |Named(t, name)| == 1
    ensures var m := Named(t, name);
            && NameTaken(t, name) && UniqueNamed(t, name)
            && m[0] in t.rows.Values && m[0].lotName == name
            && forall k :: k in t.rows && t.rows[k].lotName == name ==> t.rows[k] == m[0]
  {
    var m := Named(t, name);
    assert m[0] in m;
    var k :| k in t.rows && t.rows[k] == m[0];
    assert t.rows[k].lotName == name;
    forall j | j in t.rows && t.rows[j].lotName == name
      ensures j == k
    {
      assert t.rows[j] in m;
      assert t.rows[j].id == Some(j) && t.rows[k].id == Some(k);
    }
  }

  lemma SeveralNamed(t: LotTable, name: string)
    requires WellFormed(t) && |Named(t, name)| >= 2
    ensures NameTaken(t, name) && !UniqueNamed(t, name)
  {
    var m := Named(t, name);
    assert m[0] in m && m[1] in m;
    var j :| j in t.rows && t.rows[j] == m[0];
    var k :| k in t.rows && t.rows[k] == m[1];
    assert m[0] != m[1];
    assert t.rows[j].lotName == name && t.rows[k].lotName == name && j != k;
  }

  /** At most one stored lot carries the name. */
  ghost predicate UniqueNamed(t: LotTable, name: string)
  {
    forall j, k :: j in t.rows && k in t.rows && t.rows[j].lotName == name && t.rows[k].lotName == name ==> j == k
  }

  /** findByLocation, in id order (the query has no ORDER BY). */
  function FindByLocation(t: LotTable, location: string): (r: seq<Lot>)
    requires WellFormed(t)
    ensures forall l :: l in r ==> l in t.rows.Values && l.location == location
    ensures forall k :: k in t.rows && t.rows[k].location == location ==> t.rows[k] in r
    ensures NoDup(r)
  {
    ValuesNoDup(t);
    FilterNoDup(Values(t), (l: Lot) => l.location == location);
    Filter(Values(t), (l: Lot) => l.location == location)
  }

  /** findByStatus, in id order (the query has no ORDER BY). */
  function FindByStatus(t: LotTable, status: LotStatus): (r: seq<Lot>)
    requires WellFormed(t)
    ensures forall l :: l in r ==> l in t.rows.Values && l.status == status
    ensures forall k :: k in t.rows && t.rows[k].status == status ==> t.rows[k] in r
    ensures NoDup(r)
  {
    ValuesNoDup(t);
    FilterNoDup(Values(t), (l: Lot) => l.status == status);
    Filter(Values(t), (l: Lot) => l.status == status)
  }

  // ---------------------------------------------------------------------
  // The two JPQL listings

  /** The ORDER BY clauses of the two listings. */
  datatype Order = ByLotName | ByCreatedAtDesc

  predicate Precedes(o: Order, a: Lot, b: Lot)
  {
    match o
    case ByLotName => LexLe(a.lotName, b.lotName)
    case ByCreatedAtDesc => a.createdAt >= b.createdAt
  }

  lemma PrecedesTotal(o: Order, a: Lot, b: Lot)
    ensures Precedes(o, a, b) || Precedes(o, b, a)
  {
    if o == ByLotName {
      LexLeTotal(a.lotName, b.lotName);
    }
  }

  lemma PrecedesTransitive(o: Order, a: Lot, b: Lot, c: Lot)
    requires Precedes(o, a, b) && Precedes(o, b, c)
    ensures Precedes(o, a, c)
  {
    if o == ByLotName {
      LexLeTransitive(a.lotName, b.lotName, c.lotName);
    }
  }

  ghost predicate SortedBy(s: seq<Lot>, o: Order)
  {
    forall i, j :: 0 <= i < j < |s| ==> Precedes(o, s[i], s[j])
  }

  /** Insert `x` into a sorted listing, after every row it does not precede. */
  function InsertSorted(x: Lot, s: seq<Lot>, o: Order): (r: seq<Lot>)
    requires SortedBy(s, o)
    ensures SortedBy(r, o)
    ensures multiset(r) == multiset(s) + multiset{x}
  {
    if s == [] || Precedes(o, x, s[0]) then
      forall j | 0 <= j < |s| ensures Precedes(o, x, s[j]) {
        if j > 0 { PrecedesTransitive(o, x, s[0], s[j]); }
      }
      [x] + s
    else
      PrecedesTotal(o, x, s[0]);
      var rest := InsertSorted(x, s[1..], o);
      assert s == [s[0]] + s[1..];
      forall j | 0 <= j < |rest| ensures Precedes(o, s[0], rest[j]) {
        assert rest[j] in multiset(rest);
        if rest[j] != x {
          assert rest[j] in s[1..];
        }
      }
      [s[0]] + rest
  }

  /** Insertion sort: a sorted permutation of `s` (the order among rows that
      tie on the sort key is the model's choice, not the database's). */
  function SortBy(s: seq<Lot>, o: Order): (r: seq<Lot>)
    ensures SortedBy(r, o)
    ensures multiset(r) == multiset(s)
  {
    if s == [] then []
    else
      assert s == [s[0]] + s[1..];
      InsertSorted(s[0], SortBy(s[1..], o), o)
  }

  lemma {:induction false} InsertSortedNoDup(x: Lot, s: seq<Lot>, o: Order)
    requires SortedBy(s, o) && NoDup(s) && x !in s
    ensures NoDup(InsertSorted(x, s, o))
  {
    if s == [] || Precedes(o, x, s[0]) {
      NoDupCons(x, s);
    } else {
      NoDupTail(s);
      assert SortedBy(s[1..], o);
      InsertSortedNoDup(x, s[1..], o);
      var rest := InsertSorted(x, s[1..], o);
      assert s[0] !in multiset(rest);
      NoDupCons(s[0], rest);
    }
  }

  lemma {:induction false} SortByNoDup(s: seq<Lot>, o: Order)
    requires NoDup(s)
    ensures NoDup(SortBy(s, o))
  {
    if s != [] {
      NoDupTail(s);
      SortByNoDup(s[1..], o);
      assert s[0] !in multiset(SortBy(s[1..], o));
      InsertSortedNoDup(s[0], SortBy(s[1..], o), o);
    }
  }

  /** findAllAvailableLots: "WHERE p.status = 'AVAILABLE' ORDER BY p.lotName". */
  function FindAllAvailableLots(t: LotTable): (r: seq<Lot>)
    requires WellFormed(t)
    ensures forall l :: l in r ==> l in t.rows.Values && IsActive(l)
    ensures forall k :: k in t.rows && IsActive(t.rows[k]) ==> t.rows[k] in r
    ensures NoDup(r)
    ensures SortedBy(r, ByLotName)
  {
    var available := Filter(Values(t), (l: Lot) => l.status == Available);
    ValuesNoDup(t);
    FilterNoDup(Values(t), (l: Lot) => l.status == Available);
    SortByNoDup(available, ByLotName);
    var r := SortBy(available, ByLotName);
    assert forall l :: l in r <==> l in available by {
      forall l ensures l in r <==> l in available {
        assert l in r <==> l in multiset(r);
      }
    }
    r
  }

  /** findAllOrderByCreatedAtDesc: every lot, newest first. */
  function FindAllOrderByCreatedAtDesc(t: LotTable): (r: seq<Lot>)
    requires WellFormed(t)
    ensures forall l :: l in r ==> l in t.rows.Values
    ensures forall k :: k in t.rows ==> t.rows[k] in r
    ensures NoDup(r)
    ensures SortedBy(r, ByCreatedAtDesc)
  {
    ValuesNoDup(t);
    SortByNoDup(Values(t), ByCreatedAtDesc);
    var r := SortBy(Values(t), ByCreatedAtDesc);
    assert forall l :: l in r <==> l in Values(t) by {
      forall l ensures l in r <==> l in Values(t) {
        assert l in r <==> l in multiset(r);
      }
    }
    r
  }

  /** The ids of the lots with a given status. */
  function IdsWithStatus(t: LotTable, status: LotStatus): set<nat>
  {
    set k | k in t.rows && t.rows[k].status == status
  }

  /** countByStatus: "SELECT COUNT(p) ... WHERE p.status = :status". */
  function CountByStatus(t: LotTable, status: LotStatus): (n: nat)
    ensures n <= Count(t)
    ensures n == 0 <==> forall k :: k in t.rows ==> t.rows[k].status != status
    ensures WellFormed(t) ==> n == |FindByStatus(t, status)|
    ensures WellFormed(t) && status == Available ==> n == |FindAllAvailableLots(t)|
  {
    StatusListingCount(t, status);
    var ids := IdsWithStatus(t, status);
    assert t.rows.Keys == ids + (t.rows.Keys - ids);
    assert |t.rows.Keys| == |ids| + |t.rows.Keys - ids|;
    assert forall k :: k in t.rows && t.rows[k].status == status ==> k in ids;
    |ids|
  }

  /** A listing that holds each stored lot of a set of ids once, and
      nothing else, is as long as the set is large. */
  lemma ListedCount(t: LotTable, r: seq<Lot>, ids: set<nat>)
    requires WellFormed(t) && NoDup(r)
    requires forall x :: x in r ==> x in t.rows.Values
    requires forall k :: k in ids <==> k in t.rows && t.rows[k] in r
    ensures |r| == |ids|
  {
    forall i | 0 <= i < |r|
      ensures r[i].id.Some? && r[i].id.value in t.rows && t.rows[r[i].id.value] == r[i]
    {
      assert r[i] in r;
      var k :| k in t.rows && t.rows[k] == r[i];
    }
    DistinctIdsCard(r);
    assert (set x | x in r :: x.id.value) == ids;
  }

  /** Lots with pairwise different ids have as many ids as there are lots. */
  lemma {:induction false} DistinctIdsCard(s: seq<Lot>)
    requires forall i :: 0 <= i < |s| ==> s[i].id.Some?
    requires forall i, j :: 0 <= i < j < |s| ==> s[i].id != s[j].id
    ensures |set x | x in s :: x.id.value| == |s|
  {
    if s != [] {
      var rest := s[1..];
      forall i, j | 0 <= i < j < |rest| ensures rest[i].id != rest[j].id {
        assert rest[i] == s[i + 1] && rest[j] == s[j + 1];
      }
      DistinctIdsCard(rest);
      var all, others := set x | x in s :: x.id.value, set x | x in rest :: x.id.value;
      forall v ensures v in all <==> v == s[0].id.value || v in others {
        if v in others {
          var x :| x in rest && x.id.value == v;
          assert x in s;
        }
        if v in all && v != s[0].id.value {
          var x :| x in s && x.id.value == v;
          assert x in rest;
        }
      }
      assert s[0].id.value !in others by {
        forall m | 0 <= m < |rest| ensures rest[m].id.value != s[0].id.value {
          assert rest[m] == s[m + 1];
        }
      }
      assert all == {s[0].id.value} + others;
    }
  }

  /** count() equals the length of findAllOrderByCreatedAtDesc. */
  lemma ListingCount(t: LotTable)
    ensures WellFormed(t) ==> |FindAllOrderByCreatedAtDesc(t)| == |t.rows|
  {
    if WellFormed(t) {
      ListedCount(t, FindAllOrderByCreatedAtDesc(t), t.rows.Keys);
    }
  }

  /** countByStatus(s) equals the length of findByStatus(s), and for
      AVAILABLE the length of findAllAvailableLots. */
  lemma StatusListingCount(t: LotTable, status: LotStatus)
    ensures WellFormed(t) ==> |FindByStatus(t, status)| == |IdsWithStatus(t, status)|
    ensures WellFormed(t) && status == Available ==> |FindAllAvailableLots(t)| == |IdsWithStatus(t, status)|
  {
    if WellFormed(t) {
      ListedCount(t, FindByStatus(t, status), IdsWithStatus(t, status));
      if status == Available {
        ListedCount(t, FindAllAvailableLots(t), IdsWithStatus(t, status));
      }
    }
  }

  /** LotStatus has exactly three values, so the three status counts
      partition count(). */
  lemma {:induction false} CountsPartition(t: LotTable)
    ensures Count(t) == CountByStatus(t, Available) + CountByStatus(t, Maintenance) + CountByStatus(t, Closed)
  {
    StatusIdsPartition(t);
  }

  /** Every stored id has exactly one of the three statuses. */
  lemma StatusIdsPartition(t: LotTable)
    ensures |t.rows| == |IdsWithStatus(t, Available)| + |IdsWithStatus(t, Maintenance)| + |IdsWithStatus(t, Closed)|
  {
    var a, m, c := IdsWithStatus(t, Available), IdsWithStatus(t, Maintenance), IdsWithStatus(t, Closed);
    assert a * m == {} && (a + m) * c == {};
    assert t.rows.Keys == a + m + c;
    assert |a + m| == |a| + |m|;
    assert |a + m + c| == |a + m| + |c|;
  }

  /** The repository bean: the mutable handle every service shares on the
      parking_lots table. */
  class LotStore {
    var table: LotTable

    ghost predicate Valid()
      reads this
    {
      WellFormed(table)
    }

    constructor (t: LotTable)
      requires WellFormed(t)
      ensures Valid() && table == t
    {
      table := t;
    }

    /** save: returns the row as stored, with its id. */
    method Save(l: Lot) returns (saved: Lot)
      requires Valid()
      modifies this
      ensures Valid()
      ensures saved == Stored(old(table), l) && table == AfterSave(old(table), l)
    {
      saved := Stored(table, l);
      table := AfterSave(table, l);
    }

    method DeleteById(id: nat)
      requires Valid()
      modifies this
      ensures Valid()
      ensures table == AfterDeleteById(old(table), id)
    {
      table := AfterDeleteById(table, id);
    }
  }
}

=== FILE: ParkingLotService.dfy ===
/** ParkingLotService: the lot operations the request handlers call. Each
    call is atomic; an update loads the stored lot as an entity, changes it
    through its setters and saves it back. */
module LotService {
  import opened Wrappers
  import opened Tables
  import opened ParkingLotModel
  import opened ParkingLotRepository

  /** The message of the error Spring Data raises when a single-result finder
      matches several rows. */
  const NonUniqueResult: string := "query did not return a unique result"

  class ParkingLotService {
    const repo: LotStore

    ghost predicate Valid()
      reads this, repo
    {
      repo.Valid()
    }

    constructor (repo: LotStore)
      requires repo.Valid()
      ensures this.repo == repo && Valid()
    {
      this.repo := repo;
    }

    // -------------------------------------------------------------------
    // Reads (each delegates to one repository query)

    function GetAllParkingLots(): seq<Lot>
      reads this, repo
      requires Valid()
    {
      FindAllOrderByCreatedAtDesc(repo.table)
    }

    function GetAvailableParkingLots(): seq<Lot>
      reads this, repo
      requires Valid()
    {
      FindAllAvailableLots(repo.table)
    }

    function GetParkingLotById(id: nat): Option<Lot>
      reads this, repo
      requires Valid()
    {
      FindById(repo.table, id)
    }

    function GetParkingLotByName(lotName: string): Lookup
      reads this, repo
      requires Valid()
    {
      FindByLotName(repo.table, lotName)
    }

    function GetParkingLotsByLocation(location: string): seq<Lot>
      reads this, repo
      requires Valid()
    {
      FindByLocation(repo.table, location)
    }

    function GetParkingLotsByStatus(status: LotStatus): seq<Lot>
      reads this, repo
      requires Valid()
    {
      FindByStatus(repo.table, status)
    }

    /** existsByLotName: findByLotName(..).isPresent(), so it raises the
        finder's error when the name is not unique. */
    function ExistsByLotName(lotName: string): (r: Result<bool, string>)
      reads this, repo
      requires Valid()
      ensures r.Success? <==> UniqueNamed(repo.table, lotName)
      ensures r.Success? ==> (r.value <==> NameTaken(repo.table, lotName))
      ensures r.Failure? ==> r.error == NonUniqueResult
    {
      match FindByLotName(repo.table, lotName)
      case NotFound => Success(false)
      case Found(_) => Success(true)
      case NotUnique => Failure(NonUniqueResult)
    }

    function GetTotalLots(): nat
      reads this, repo
    {
      Count(repo.table)
    }

    function GetAvailableLotsCount(): nat
      reads this, repo
    {
      CountByStatus(repo.table, Available)
    }

    function GetMaintenanceLotsCount(): nat
      reads this, repo
    {
      CountByStatus(repo.table, Maintenance)
    }

    function GetClosedLotsCount(): nat
      reads this, repo
    {
      CountByStatus(repo.table, Closed)
    }

    // -------------------------------------------------------------------
    // Writes

    /** saveParkingLot: persists the entity as it stands. */
    method SaveParkingLot(lot: ParkingLot) returns (saved: Lot)
      requires Valid()
      modifies repo
      ensures Valid()
      ensures saved == Stored(old(repo.table), lot.Snapshot())
      ensures repo.table == AfterSave(old(repo.table), lot.Snapshot())
    {
      saved := repo.Save(lot.Snapshot());
    }

    /** createParkingLot: a new entity with the four given fields and the
        entity defaults (AVAILABLE, nothing occupied), inserted under a fresh
        id. */
    method CreateParkingLot(lotName: string, location: string, description: string, capacity: Int32, now: Time)
      returns (saved: Lot)
      requires Valid()
      modifies repo
      ensures Valid()
      ensures saved == Lot(Some(old(repo.table.nextId)), lotName, location, description, capacity, Available, 0, now, now)
      ensures old(repo.table.nextId) !in old(repo.table.rows)
      ensures repo.table.rows == old(repo.table.rows)[old(repo.table.nextId) := saved]
      ensures repo.table.nextId == old(repo.table.nextId) + 1
    {
      var lot := new ParkingLot.WithDetails(lotName, location, description, capacity, now);
      saved := repo.Save(lot.Snapshot());
    }

    /** updateParkingLot: on a stored id, overwrite name, location,
        description, capacity and status (each setter stamping updatedAt) and
        save; on an unknown id, return null and change nothing. */
    method UpdateParkingLot(id: nat, lotName: string, location: string, description: string,
                            capacity: Int32, status: LotStatus, now: Time)
      returns (r: Option<Lot>)
      requires Valid()
      modifies repo
      ensures Valid()
      ensures id !in old(repo.table.rows) ==> r.None? && repo.table == old(repo.table)
      ensures id in old(repo.table.rows) ==>
                var before := old(repo.table.rows[id]);
                var after := before.(lotName := lotName, location := location, description := description,
                                     capacity := capacity, status := status, updatedAt := now);
                && r == Some(after)
                && repo.table.rows == old(repo.table.rows)[id := after]
                && repo.table.nextId == old(repo.table.nextId)
    {
      var found := FindById(repo.table, id);
      if found.None? {
        return None;
      }
      var lot := new ParkingLot.Load(found.value);
      lot.SetLotName(lotName, now);
      lot.SetLocation(location, now);
      lot.SetDescription(description, now);
      lot.SetCapacity(capacity, now);
      lot.SetStatus(status, now);
      var saved := repo.Save(lot.Snapshot());
      r := Some(saved);
    }

    /** deleteParkingLot: true and the row removed iff the id was stored. */
    method DeleteParkingLot(id: nat) returns (deleted: bool)
      requires Valid()
      modifies repo
      ensures Valid()
      ensures deleted <==> id in old(repo.table.rows)
      ensures repo.table.rows == old(repo.table.rows) - {id}
      ensures repo.table.nextId == old(repo.table.nextId)
    {
      if id in repo.table.rows {
        repo.DeleteById(id);
        deleted := true;
      } else {
        deleted := false;
      }
    }

    /** updateOccupancy: on a stored id, overwrite occupiedSlots (no check
        against capacity or sign) and save; on an unknown id, return null and
        change nothing. */
    method UpdateOccupancy(id: nat, occupiedSlots: Int32, now: Time) returns (r: Option<Lot>)
      requires Valid()
      modifies repo
      ensures Valid()
      ensures id !in old(repo.table.rows) ==> r.None? && repo.table == old(repo.table)
      ensures id in old(repo.table.rows) ==>
                var after := old(repo.table.rows[id]).(occupiedSlots := occupiedSlots, updatedAt := now);
                && r == Some(after)
                && repo.table.rows == old(repo.table.rows)[id := after]
                && repo.table.nextId == old(repo.table.nextId)
    {
      var found := FindById(repo.table, id);
      if found.None? {
        return None;
      }
      var lot := new ParkingLot.Load(found.value);
      lot.SetOccupiedSlots(occupiedSlots, now);
      var saved := repo.Save(lot.Snapshot());
      r := Some(saved);
    }
  }

  /** The dashboard's four figures agree: total = available + maintenance +
      closed. */
  lemma DashboardCountsAddUp(s: ParkingLotService)
    ensures s.GetTotalLots() == s.GetAvailableLotsCount() + s.GetMaintenanceLotsCount() + s.GetClosedLotsCount()
  {
    CountsPartition(s.repo.table);
  }
}

=== FILE: ProfileController.dfy ===
/** ProfileController: the signed-in user's own profile pages, profile
    update, password change and account deletion. */
module ProfileHandlers {
  import opened Wrappers
  import opened Tables
  import opened UserModel
  import opened UserRepository
  import opened AccountService
  import opened Web

  const LoginPath: string := "/login"
  const ProfilePath: string := "/profile"
  const EditView: string := "profile/edit"
  const PasswordView: string := "profile/change-password"
  const TooShort: string := "New password must be at least 6 characters long!"
  const Mismatch: string := "New passwords do not match!"
  const WrongPassword: string := "Current password is incorrect!"
  /** Dereferencing the null that getCurrentUser returns. */
  const NullDereference: string := "NullPointerException"

  /** Only these field errors stop a profile update. */
  predicate BlocksUpdate(fieldErrors: set<string>)
  {
    "email" in fieldErrors || "firstName" in fieldErrors || "lastName" in fieldErrors
  }

  class ProfileController {
    const userService: UserService

    ghost predicate Valid()
      reads this, userService, userService.repo
    {
      userService.Valid()
    }

    constructor (userService: UserService)
      requires userService.Valid()
      ensures this.userService == userService && Valid()
    {
      this.userService := userService;
    }

    /** GET /profile. */
    method ViewProfile(auth: Option<Principal>) returns (resp: Response, shown: Option<User>)
      requires Valid()
      ensures userService.GetCurrentUser(auth).None? ==> resp == Redirect(LoginPath, NoFlash) && shown.None?
      ensures userService.GetCurrentUser(auth).Some? ==>
                resp == Render("profile/view", NoNotice) && shown == userService.GetCurrentUser(auth)
    {
      shown := userService.GetCurrentUser(auth);
      resp := if shown.None? then Redirect(LoginPath, NoFlash) else Render("profile/view", NoNotice);
    }

    /** GET /profile/edit. */
    method EditProfile(auth: Option<Principal>) returns (resp: Response, shown: Option<User>)
      requires Valid()
      ensures userService.GetCurrentUser(auth).None? ==> resp == Redirect(LoginPath, NoFlash) && shown.None?
      ensures userService.GetCurrentUser(auth).Some? ==>
                resp == Render(EditView, NoNotice) && shown == userService.GetCurrentUser(auth)
    {
      shown := userService.GetCurrentUser(auth);
      resp := if shown.None? then Redirect(LoginPath, NoFlash) else Render(EditView, NoNotice);
    }

    /** POST /profile/update. `fieldErrors` names the fields whose binding or
        validation failed; `shown` is the form object the view displays, with
        the username put back from the current account. Without a current
        account the handler dereferences null. */
    method UpdateProfile(auth: Option<Principal>, form: User, fieldErrors: set<string>)
      returns (resp: Response, shown: User)
      requires Valid()
      modifies userService.repo
      ensures Valid()
      ensures BlocksUpdate(fieldErrors) ==> userService.repo.table == old(userService.repo.table)
      ensures BlocksUpdate(fieldErrors) && old(userService.GetCurrentUser(auth)).Some? ==>
                && resp == Render(EditView, BindingErrors)
                && shown == form.(username := old(userService.GetCurrentUser(auth)).value.username)
      ensures old(userService.GetCurrentUser(auth)).None? ==>
                resp == ServerError(NullDereference) && userService.repo.table == old(userService.repo.table)
      ensures !BlocksUpdate(fieldErrors) && old(userService.GetCurrentUser(auth)).Some? ==>
                var current := old(userService.GetCurrentUser(auth)).value;
                if current.email != form.email && ExistsByEmail(old(userService.repo.table), form.email) then
                  && resp == Render(EditView, ErrorMessage("Email already exists!"))
                  && shown == form.(username := current.username)
                  && userService.repo.table == old(userService.repo.table)
                else
                  && resp == Redirect(ProfilePath, SuccessFlash("Profile updated successfully!"))
                  && userService.repo.table.rows ==
                       old(userService.repo.table.rows)[current.id.value :=
                         current.(email := form.email, firstName := form.firstName,
                                  lastName := form.lastName, phoneNumber := form.phoneNumber)]
                  && userService.repo.table.nextId == old(userService.repo.table.nextId)
      ensures UniqueUsernames(old(userService.repo.table)) ==> UniqueUsernames(userService.repo.table)
    {
      shown := form;
      if BlocksUpdate(fieldErrors) {
        var current := userService.GetCurrentUser(auth);
        if current.None? {
          return ServerError(NullDereference), shown;
        }
        shown := form.(username := current.value.username);
        return Render(EditView, BindingErrors), shown;
      }
      var r := userService.UpdateUserProfile(auth, form);
      if r.Success? {
        resp := Redirect(ProfilePath, SuccessFlash("Profile updated successfully!"));
      } else {
        var current := userService.GetCurrentUser(auth);
        if current.None? {
          return ServerError(NullDereference), shown;
        }
        shown := form.(username := current.value.username);
        resp := Render(EditView, ErrorMessage(r.error));
      }
    }

    /** POST /profile/change-password: length first, then confirmation, and
        only then the service. */
    method ChangePassword(auth: Option<Principal>, oldPassword: string, newPassword: string, confirmPassword: string)
      returns (resp: Response)
      requires Valid()
      modifies userService.repo
      ensures Valid()
      ensures |newPassword| < 6 ==>
                resp == Render(PasswordView, ErrorMessage(TooShort)) && userService.repo.table == old(userService.repo.table)
      ensures |newPassword| >= 6 && newPassword != confirmPassword ==>
                resp == Render(PasswordView, ErrorMessage(Mismatch)) && userService.repo.table == old(userService.repo.table)
      ensures |newPassword| >= 6 && newPassword == confirmPassword ==>
                var current := old(userService.GetCurrentUser(auth));
                if current.Some? && userService.encoder.matches(oldPassword, current.value.password) then
                  && resp == Redirect(ProfilePath, SuccessFlash("Password changed successfully!"))
                  && userService.repo.table.rows ==
                       old(userService.repo.table.rows)[current.value.id.value :=
                         current.value.(password := userService.encoder.encode(newPassword))]
                  && userService.repo.table.nextId == old(userService.repo.table.nextId)
                else
                  resp == Render(PasswordView, ErrorMessage(WrongPassword)) && userService.repo.table == old(userService.repo.table)
      ensures UniqueUsernames(old(userService.repo.table)) ==> UniqueUsernames(userService.repo.table)
    {
      if |newPassword| < 6 {
        return Render(PasswordView, ErrorMessage(TooShort));
      }
      if newPassword != confirmPassword {
        return Render(PasswordView, ErrorMessage(Mismatch));
      }
      var changed := userService.ChangePassword(auth, oldPassword, newPassword);
      if changed {
        resp := Redirect(ProfilePath, SuccessFlash("Password changed successfully!"));
      } else {
        resp := Render(PasswordView, ErrorMessage(WrongPassword));
      }
    }

    /** POST /profile/delete: delete the current account, clear the security
        context, go to the home page. */
    method DeleteProfile(auth: Option<Principal>) returns (resp: Response, authAfter: Option<Principal>)
      requires Valid()
      modifies userService.repo
      ensures Valid()
      ensures resp == Redirect("/", SuccessFlash("Your account has been deleted successfully!"))
      ensures authAfter.None?
      ensures old(userService.GetCurrentUser(auth)).None? ==> userService.repo.table == old(userService.repo.table)
      ensures old(userService.GetCurrentUser(auth)).Some? ==>
                && userService.repo.table.rows ==
                     old(userService.repo.table.rows) - {old(userService.GetCurrentUser(auth)).value.id.value}
                && userService.repo.table.nextId == old(userService.repo.table.nextId)
    {
      userService.DeleteCurrentUser(auth);
      authAfter := None;
      resp := Redirect("/", SuccessFlash("Your account has been deleted successfully!"));
    }
  }
}

=== FILE: Sequences.dfy ===
/** Generic facts about sequences used by the repository queries. */
module Sequences {

  /** No element occurs twice. */
  ghost predicate NoDup<T>(s: seq<T>)
  {
    forall i, j :: 0 <= i < j < |s| ==> s[i] != s[j]
  }

  lemma NoDupCons<T>(x: T, s: seq<T>)
    requires x !in s && NoDup(s)
    ensures NoDup([x] + s)
  {
    var r := [x] + s;
    forall i, j | 0 <= i < j < |r| ensures r[i] != r[j] {
      assert r[j] == s[j - 1];
    }
  }

  lemma NoDupTail<T>(s: seq<T>)
    requires |s| > 0 && NoDup(s)
    ensures s[0] !in s[1..] && NoDup(s[1..])
  {
    forall i, j | 0 <= i < j < |s[1..]| ensures s[1..][i] != s[1..][j] {
      assert s[1..][i] == s[i + 1] && s[1..][j] == s[j + 1];
    }
  }

  /** The elements of `s` that satisfy `p`, in their original order. */
  function Filter<T(!new)>(s: seq<T>, p: T -> bool): (r: seq<T>)
    ensures forall x :: x in r <==> x in s && p(x)
    ensures |r| <= |s|
  {
    if s == [] then []
    else
      assert forall x :: x in s <==> x == s[0] || x in s[1..];
      if p(s[0]) then [s[0]] + Filter(s[1..], p) else Filter(s[1..], p)
  }

  lemma {:induction false} FilterNoDup<T(!new)>(s: seq<T>, p: T -> bool)
    requires NoDup(s)
    ensures NoDup(Filter(s, p))
  {
    if s != [] {
      NoDupTail(s);
      FilterNoDup(s[1..], p);
      if p(s[0]) {
        NoDupCons(s[0], Filter(s[1..], p));
      }
    }
  }
}

=== FILE: Tables.dfy ===
/** An in-memory relational table whose primary key is generated by an
    identity column: `rows` maps each id to its row and `nextId` is the value
    the identity column hands out next. */
module Tables {
  import opened Wrappers
  import opened Sequences

  datatype Table<T> = Table(rows: map<nat, T>, nextId: nat)

  /** Every id in use was handed out before `nextId`. */
  ghost predicate Bounded<T>(t: Table<T>)
  {
    forall k :: k in t.rows ==> k < t.nextId
  }

  /** The key a JPA save writes: the entity's own id when a row has that id
      (an update), otherwise the next identity value (an insert). */
  function SaveKey<T>(t: Table<T>, id: Option<nat>): (k: nat)
    ensures k in t.rows || k == t.nextId
    ensures id.Some? && id.value in t.rows ==> k == id.value
    ensures !(id.Some? && id.value in t.rows) ==> k == t.nextId
  {
    if id.Some? && id.value in t.rows then id.value else t.nextId
  }

  /** Write `row` under key `k`, an existing id or the next identity value;
      the identity counter moves on when it was used. */
  function Put<T>(t: Table<T>, k: nat, row: T): (r: Table<T>)
    requires Bounded(t) && (k in t.rows || k == t.nextId)
    ensures Bounded(r)
    ensures r.rows == t.rows[k := row]
    ensures k in t.rows ==> r.nextId == t.nextId
    ensures k !in t.rows ==> r.nextId == t.nextId + 1
  {
    Table(t.rows[k := row], if k in t.rows then t.nextId else t.nextId + 1)
  }

  /** Rows stored under different ids differ (each row carries its own id). */
  ghost predicate Injective<T>(t: Table<T>)
  {
    forall j, k :: j in t.rows && k in t.rows && j != k ==> t.rows[j] != t.rows[k]
  }

  /** The rows whose id is below `n`, in ascending id order. */
  function RowsBelow<T(!new)>(rows: map<nat, T>, n: nat): (r: seq<T>)
    ensures forall x :: x in r <==> exists k :: k in rows && k < n && rows[k] == x
  {
    if n == 0 then []
    else if n - 1 in rows then RowsBelow(rows, n - 1) + [rows[n - 1]]
    else RowsBelow(rows, n - 1)
  }

  /** Every row of the table, in ascending id order (the order in which a
      query without ORDER BY is assumed to return them). */
  function Values<T(!new)>(t: Table<T>): (r: seq<T>)
    requires Bounded(t)
    ensures forall x :: x in r <==> exists k :: k in t.rows && t.rows[k] == x
  {
    RowsBelow(t.rows, t.nextId)
  }

  lemma NoDupSnoc<T>(s: seq<T>, y: T)
    requires NoDup(s) && y !in s
    ensures NoDup(s + [y])
  {
    var r := s + [y];
    forall i, j | 0 <= i < j < |r| ensures r[i] != r[j] {
      assert r[i] == s[i];
    }
  }

  lemma {:induction false} RowsBelowNoDup<T(!new)>(t: Table<T>, n: nat)
    requires Injective(t)
    ensures NoDup(RowsBelow(t.rows, n))
  {
    if n > 0 {
      RowsBelowNoDup(t, n - 1);
      if n - 1 in t.rows {
        NoDupSnoc(RowsBelow(t.rows, n - 1), t.rows[n - 1]);
      }
    }
  }

  /** Listing a table whose rows are distinct lists each row once. */
  lemma ValuesNoDup<T(!new)>(t: Table<T>)
    requires Bounded(t) && Injective(t)
    ensures NoDup(Values(t))
  {
    RowsBelowNoDup(t, t.nextId);
  }
}

=== FILE: Text.dfy ===
/** Strings as the source's validation and ordering see them. */
module Text {

  /** Every character is at or below U+0020, the characters String.trim()
      strips. */
  predicate IsBlank(s: string)
  {
    forall i :: 0 <= i < |s| ==> s[i] <= ' '
  }

  /** The leading half of String.trim(): drops the characters at or below
      U+0020 from the front. */
  function TrimStart(s: string): (r: string)
    ensures |r| <= |s| && r == s[|s| - |r|..]
    ensures forall i :: 0 <= i < |s| - |r| ==> s[i] <= ' '
    ensures r == [] || r[0] > ' '
  {
    if |s| > 0 && s[0] <= ' ' then
      var r := TrimStart(s[1..]);
      assert s[1..][|s| - 1 - |r|..] == s[|s| - |r|..];
      assert forall i :: 1 <= i < |s| - |r| ==> s[i] == s[1..][i - 1];
      r
    else s
  }

  /** The trailing half of String.trim(): drops the characters at or below
      U+0020 from the back. */
  function TrimEnd(s: string): (r: string)
    ensures |r| <= |s| && r == s[..|r|]
    ensures forall i :: |r| <= i < |s| ==> s[i] <= ' '
    ensures r == [] || r[|r| - 1] > ' '
  {
    if |s| > 0 && s[|s| - 1] <= ' ' then
      var r := TrimEnd(s[..|s| - 1]);
      assert s[..|s| - 1][..|r|] == s[..|r|];
      assert forall i :: |r| <= i < |s| - 1 ==> s[i] == s[..|s| - 1][i];
      r
    else s
  }

  /** String.trim(): the string without its leading and trailing characters
      at or below U+0020. */
  function Trim(s: string): (r: string)
    ensures r == [] || (r[0] > ' ' && r[|r| - 1] > ' ')
  {
    TrimEnd(TrimStart(s))
  }

  /** trim() returns a slice of its input, and every character it cut off at
      either end is at or below U+0020. */
  lemma TrimSlice(s: string)
    ensures exists a, b :: 0 <= a <= b <= |s| && Trim(s) == s[a..b]
              && (forall i :: 0 <= i < a ==> s[i] <= ' ')
              && (forall i :: b <= i < |s| ==> s[i] <= ' ')
  {
    var a, b := Cuts(s, TrimStart(s), Trim(s));
  }

  /** A blank-only prefix cut off `s`, then a blank-only suffix cut off the
      rest, leave the slice `s[a..b]`. */
  lemma Cuts(s: string, rest: string, t: string) returns (a: nat, b: nat)
    requires |rest| <= |s| && rest == s[|s| - |rest|..]
    requires forall i :: 0 <= i < |s| - |rest| ==> s[i] <= ' '
    requires |t| <= |rest| && t == rest[..|t|]
    requires forall i :: |t| <= i < |rest| ==> rest[i] <= ' '
    ensures a <= b <= |s| && t == s[a..b]
    ensures forall i :: 0 <= i < a ==> s[i] <= ' '
    ensures forall i :: b <= i < |s| ==> s[i] <= ' '
  {
    a := |s| - |rest|;
    b := a + |t|;
    assert forall i :: b <= i < |s| ==> s[i] == rest[i - a];
  }

  /** @NotBlank rejects exactly the strings whose trim() is empty, so a
      string passes it iff some character lies above U+0020. */
  lemma TrimEmptyIffBlank(s: string)
    ensures |Trim(s)| == 0 <==> IsBlank(s)
  {
  }

  /** String.trim() on a concrete value. */
  lemma TrimExample()
    ensures Trim(" \t Lot A \n") == "Lot A"
  {
    assert TrimStart("Lot A \n") == "Lot A \n";
    assert TrimStart(" Lot A \n") == "Lot A \n";
    assert TrimStart("\t Lot A \n") == "Lot A \n";
    assert TrimEnd("Lot A") == "Lot A";
    assert TrimEnd("Lot A ") == "Lot A";
    assert TrimEnd("Lot A \n") == "Lot A";
  }

  /** Lexicographic order on strings by character code: the ORDER BY of a
      string column under a binary collation. */
  predicate LexLe(a: string, b: string)
  {
    |a| == 0 || (|b| > 0 && (a[0] < b[0] || (a[0] == b[0] && LexLe(a[1..], b[1..]))))
  }

  lemma {:induction false} LexLeTotal(a: string, b: string)
    ensures LexLe(a, b) || LexLe(b, a)
  {
    if |a| > 0 && |b| > 0 && a[0] == b[0] {
      LexLeTotal(a[1..], b[1..]);
    }
  }

  lemma {:induction false} LexLeTransitive(a: string, b: string, c: string)
    requires LexLe(a, b) && LexLe(b, c)
    ensures LexLe(a, c)
  {
    if |a| > 0 && a[0] == b[0] && b[0] == c[0] {
      LexLeTransitive(a[1..], b[1..], c[1..]);
    }
  }
}

=== FILE: User.dfy ===
/** The user account, the caller's identity and the password encoder, as the
    user services see them. Only the fields the services read or set are
    modelled. */
module UserModel {
  import opened Wrappers

  /** User.Role: USER, LOT_MANAGER, ADMIN. */
  datatype Role = RegularUser | LotManager | Admin

  /** A user account; `id` is None until the account is first saved, and a
      null phone number appears as "". */
  datatype User = User(
    id: Option<nat>,
    username: string,
    password: string,
    email: string,
    firstName: string,
    lastName: string,
    phoneNumber: string,
    role: Role)

  /** The authenticated principal of the request: its name and whether the
      authentication is marked authenticated. An absent context is None. */
  datatype Principal = Principal(name: string, authenticated: bool)

  /** The name the security layer gives an unauthenticated visitor. */
  const AnonymousName: string := "anonymousUser"

  /** A PasswordEncoder: a one-way `encode` and the check `matches(raw,
      encoded)`. Both are left uninterpreted. */
  datatype PasswordEncoder = PasswordEncoder(encode: string -> string, matches: (string, string) -> bool)

  /** The one property every encoder promises: a password matches its own
      encoding. */
  ghost predicate Sound(e: PasswordEncoder)
  {
    forall raw :: e.matches(raw, e.encode(raw))
  }
}

=== FILE: UserRepository.dfy ===
/** The users table and the queries the services run over it. */
module UserRepository {
  import opened Wrappers
  import opened Sequences
  import opened Tables
  import opened UserModel

  type UserTable = Table<User>

  /** Ids below the identity counter, and each row carries its own id. */
  ghost predicate WellFormed(t: UserTable)
  {
    Bounded(t) && forall k :: k in t.rows ==> t.rows[k].id == Some(k)
  }

  /** No two accounts share a username. Every operation of the model keeps
      this (registration and seeding check the name, nothing renames). */
  ghost predicate UniqueUsernames(t: UserTable)
  {
    forall j, k :: j in t.rows && k in t.rows && j != k ==> t.rows[j].username != t.rows[k].username
  }

  /** existsByUsername: some account id carries the username. */
  predicate ExistsByUsername(t: UserTable, username: string)
  {
    exists k | k in t.rows :: t.rows[k].username == username
  }

  /** existsByEmail: some account id carries the email. */
  predicate ExistsByEmail(t: UserTable, email: string)
  {
    exists k | k in t.rows :: t.rows[k].email == email
  }

  /** findByEmail: an account with the email, present exactly when
      existsByEmail holds. The email column has no unique constraint; with
      two accounts of one email Spring Data would raise an error, and the
      model returns the first in id order. */
  function FindByEmail(t: UserTable, email: string): (r: Option<User>)
    requires WellFormed(t)
    ensures r.None? <==> !ExistsByEmail(t, email)
    ensures r.Some? ==> r.value in t.rows.Values && r.value.email == email
  {
    var matches := Filter(Values(t), (u: User) => u.email == email);
    if |matches| == 0 then
      assert forall k :: k in t.rows && t.rows[k].email == email ==> t.rows[k] in matches;
      None
    else
      assert matches[0] in matches;
      Some(matches[0])
  }

  /** findByUsername. With two accounts of one name Spring Data would raise
      an error; the model returns the first in id order, and under
      UniqueUsernames the match is the only one. */
  function FindByUsername(t: UserTable, username: string): (r: Option<User>)
    requires WellFormed(t)
    ensures r.None? <==> !ExistsByUsername(t, username)
    ensures r.Some? ==> r.value in t.rows.Values && r.value.username == username
    ensures r.Some? && UniqueUsernames(t) ==>
              forall k :: k in t.rows && t.rows[k].username == username ==> t.rows[k] == r.value
  {
    var matches := Filter(Values(t), (u: User) => u.username == username);
    if |matches| == 0 then
      assert forall k :: k in t.rows && t.rows[k].username == username ==> t.rows[k] in matches;
      None
    else
      assert matches[0] in matches;
      Some(matches[0])
  }

  /** The ids of the accounts with a given username. */
  ghost function IdsNamed(t: UserTable, username: string): set<nat>
  {
    set k | k in t.rows && t.rows[k].username == username
  }

  predicate IsUpdate(t: UserTable, u: User)
  {
    u.id.Some? && u.id.value in t.rows
  }

  /** The row save writes: the account under the id SaveKey chooses. */
  function Stored(t: UserTable, u: User): User
  {
    u.(id := Some(SaveKey(t, u.id)))
  }

  /** save(user): overwrite the row with the account's id, or insert it under
      a freshly generated id when it has none or its id has no row. */
  function AfterSave(t: UserTable, u: User): (r: UserTable)
    requires WellFormed(t)
    ensures WellFormed(r)
    ensures Stored(t, u).id.value in r.rows && r.rows[Stored(t, u).id.value] == Stored(t, u)
    ensures r.rows.Keys == t.rows.Keys + {Stored(t, u).id.value}
    ensures IsUpdate(t, u) ==> r.nextId == t.nextId
    ensures !IsUpdate(t, u) ==> Stored(t, u).id.value !in t.rows && r.nextId == t.nextId + 1
    ensures forall k :: k in t.rows && k != Stored(t, u).id.value ==> r.rows[k] == t.rows[k]
  {
    Put(t, SaveKey(t, u.id), Stored(t, u))
  }

  /** delete(user): removes the row with the account's id, if any. */
  function AfterDelete(t: UserTable, u: User): (r: UserTable)
    requires WellFormed(t)
    ensures WellFormed(r)
    ensures u.id.Some? ==> r.rows.Keys == t.rows.Keys - {u.id.value}
    ensures u.id.None? ==> r == t
    ensures forall k :: k in r.rows ==> r.rows[k] == t.rows[k]
  {
    if u.id.Some? then t.(rows := t.rows - {u.id.value}) else t
  }

  /** The repository bean: the mutable handle on the users table. */
  class UserStore {
    var table: UserTable

    ghost predicate Valid()
      reads this
    {
      WellFormed(table)
    }

    constructor (t: UserTable)
      requires WellFormed(t)
      ensures Valid() && table == t
    {
      table := t;
    }

    method Save(u: User) returns (saved: User)
      requires Valid()
      modifies this
      ensures Valid()
      ensures saved == Stored(old(table), u) && table == AfterSave(old(table), u)
    {
      saved := Stored(table, u);
      table := AfterSave(table, u);
    }

    method Delete(u: User)
      requires Valid()
      modifies this
      ensures Valid()
      ensures table == AfterDelete(old(table), u)
    {
      table := AfterDelete(table, u);
    }
  }
}

=== FILE: UserService.dfy ===
/** UserService: registration, the current user, profile update, password
    change and self-deletion. The ambient security context is the explicit
    `auth` parameter; the password encoder is a collaborator. */
module AccountService {
  import opened Wrappers
  import opened Tables
  import opened UserModel
  import opened UserRepository

  /** The security context holds a real, authenticated, non-anonymous
      principal. */
  predicate SignedIn(auth: Option<Principal>)
  {
    auth.Some? && auth.value.authenticated && auth.value.name != AnonymousName
  }

  class UserService {
    const repo: UserStore
    const encoder: PasswordEncoder

    ghost predicate Valid()
      reads this, repo
    {
      repo.Valid()
    }

    constructor (repo: UserStore, encoder: PasswordEncoder)
      requires repo.Valid()
      ensures this.repo == repo && this.encoder == encoder && Valid()
    {
      this.repo := repo;
      this.encoder := encoder;
    }

    /** getCurrentUser: no user unless the caller is signed in; otherwise the
        account with the principal's name, if it still exists. */
    function GetCurrentUser(auth: Option<Principal>): (r: Option<User>)
      reads this, repo
      requires Valid()
      ensures !SignedIn(auth) ==> r.None?
      ensures SignedIn(auth) ==> (r.None? <==> !ExistsByUsername(repo.table, auth.value.name))
      ensures r.Some? ==> r.value in repo.table.rows.Values && r.value.username == auth.value.name
    {
      if SignedIn(auth) then FindByUsername(repo.table, auth.value.name) else None
    }

    /** registerUser: the username check comes first, then the email check;
        on success the password is replaced by its encoding and the account
        saved. */
    method RegisterUser(user: User) returns (r: Result<User, string>)
      requires Valid()
      modifies repo
      ensures Valid()
      ensures ExistsByUsername(old(repo.table), user.username) ==>
                r == Failure("Username already exists!") && repo.table == old(repo.table)
      ensures !ExistsByUsername(old(repo.table), user.username) && ExistsByEmail(old(repo.table), user.email) ==>
                r == Failure("Email already exists!") && repo.table == old(repo.table)
      ensures !ExistsByUsername(old(repo.table), user.username) && !ExistsByEmail(old(repo.table), user.email) ==>
                var encoded := user.(password := encoder.encode(user.password));
                && r == Success(Stored(old(repo.table), encoded))
                && repo.table == AfterSave(old(repo.table), encoded)
      ensures UniqueUsernames(old(repo.table)) ==> UniqueUsernames(repo.table)
    {
      if ExistsByUsername(repo.table, user.username) {
        return Failure("Username already exists!");
      }
      if ExistsByEmail(repo.table, user.email) {
        return Failure("Email already exists!");
      }
      var encoded := user.(password := encoder.encode(user.password));
      var saved := repo.Save(encoded);
      r := Success(saved);
    }

    /** updateUserProfile: only email, first name, last name and phone number
        of the current account change; a changed email must be free. */
    method UpdateUserProfile(auth: Option<Principal>, updated: User) returns (r: Result<User, string>)
      requires Valid()
      modifies repo
      ensures Valid()
      ensures old(GetCurrentUser(auth)).None? ==>
                r == Failure("User not found!") && repo.table == old(repo.table)
      ensures old(GetCurrentUser(auth)).Some? ==>
                var current := old(GetCurrentUser(auth)).value;
                if current.email != updated.email && ExistsByEmail(old(repo.table), updated.email) then
                  r == Failure("Email already exists!") && repo.table == old(repo.table)
                else
                  var after := current.(email := updated.email, firstName := updated.firstName,
                                        lastName := updated.lastName, phoneNumber := updated.phoneNumber);
                  && r == Success(after)
                  && repo.table.rows == old(repo.table.rows)[current.id.value := after]
                  && repo.table.nextId == old(repo.table.nextId)
      ensures UniqueUsernames(old(repo.table)) ==> UniqueUsernames(repo.table)
    {
      var current := GetCurrentUser(auth);
      if current.None? {
        return Failure("User not found!");
      }
      var user := current.value;
      if user.email != updated.email && ExistsByEmail(repo.table, updated.email) {
        return Failure("Email already exists!");
      }
      user := user.(email := updated.email, firstName := updated.firstName,
                    lastName := updated.lastName, phoneNumber := updated.phoneNumber);
      var saved := repo.Save(user);
      r := Success(saved);
    }

    /** changePassword: false, changing nothing, without a current user or
        when the old password does not match the stored hash; otherwise the
        stored password becomes the encoding of the new one. */
    method ChangePassword(auth: Option<Principal>, oldPassword: string, newPassword: string) returns (changed: bool)
      requires Valid()
      modifies repo
      ensures Valid()
      ensures old(GetCurrentUser(auth)).None? ==> !changed && repo.table == old(repo.table)
      ensures old(GetCurrentUser(auth)).Some? ==>
                var current := old(GetCurrentUser(auth)).value;
                if !encoder.matches(oldPassword, current.password) then
                  !changed && repo.table == old(repo.table)
                else
                  && changed
                  && repo.table.rows == old(repo.table.rows)[current.id.value := current.(password := encoder.encode(newPassword))]
                  && repo.table.nextId == old(repo.table.nextId)
      ensures changed && Sound(encoder) ==>
                encoder.matches(newPassword, repo.table.rows[old(GetCurrentUser(auth)).value.id.value].password)
      ensures UniqueUsernames(old(repo.table)) ==> UniqueUsernames(repo.table)
    {
      var current := GetCurrentUser(auth);
      if current.None? {
        return false;
      }
      var user := current.value;
      if !encoder.matches(oldPassword, user.password) {
        return false;
      }
      user := user.(password := encoder.encode(newPassword));
      var _ := repo.Save(user);
      changed := true;
    }

    /** deleteCurrentUser: removes the current account; nothing without one. */
    method DeleteCurrentUser(auth: Option<Principal>)
      requires Valid()
      modifies repo
      ensures Valid()
      ensures old(GetCurrentUser(auth)).None? ==> repo.table == old(repo.table)
      ensures old(GetCurrentUser(auth)).Some? ==>
                && repo.table.rows == old(repo.table.rows) - {old(GetCurrentUser(auth)).value.id.value}
                && repo.table.nextId == old(repo.table.nextId)
      ensures UniqueUsernames(old(repo.table)) ==> UniqueUsernames(repo.table)
    {
      var current := GetCurrentUser(auth);
      if current.Some? {
        repo.Delete(current.value);
      }
    }
  }
}

=== FILE: Web.dfy ===
/** What a request handler answers: a rendered view, a redirect with a
    one-time flash message, or an exception that no handler catches. View
    names and messages are kept as the strings the handlers use. */
module Web {

  /** A flash attribute carried across a redirect. */
  datatype Flash = NoFlash | SuccessFlash(message: string) | ErrorFlash(message: string)

  /** What a re-rendered form shows besides its data. */
  datatype Notice =
    | NoNotice
    | BindingErrors                               // the validation errors already in the BindingResult
    | FieldError(field: string, message: string)  // result.rejectValue(field, .., message)
    | ErrorMessage(message: string)               // model attribute "errorMessage"

  datatype Response =
    | Render(view: string, notice: Notice)
    | Redirect(location: string, flash: Flash)
    | ServerError(cause: string)
}

=== FILE: Wrappers.dfy ===
/** Optional values and results with an error, used where the source returns
    null / Optional.empty() or throws a RuntimeException with a message. */
module Wrappers {

  datatype Option<+T> = None | Some(value: T)

  datatype Result<+R, +E> = Success(value: R) | Failure(error: E)
}
